=== FILE: README.md ===
# OptiMind AI service layer in Dafny

A functional model of the decision and aggregation logic of the OptiMind AI
service layer. The model covers:

- the multi-model consensus aggregator and its recommendation label;
- the `AI_MODELS` registry;
- the defaults and cost rule of `chat`, `getCostEstimate`, `getRecommendedModel` and `getModelForTask`;
- the prompt builders and the per-feature request settings;
- the Diamond-Grade analysis pipeline, the PRD generator and their constant fallbacks;
- the `/api/diamond-grade-analysis` POST and GET handlers;
- the socket server's `processAIRequest` switch and the events its `ai-request` handler emits.

Every external effect is an input rather than an effect:

- a provider call becomes the `Result` it returned;
- the simulated `Math.random()` confidence becomes a value passed in;
- environment variables become an `Env` record of optional strings;
- `JSON.parse` becomes a parameter `parse: string -> Option<...>`;
- each clock reading becomes an integer: `Stages.searchClock` is the reading taken when the deep search returns, and `now` is the one taken for the result's timestamp;
- a database write or read becomes its outcome.

The modules are:

| file | module | models |
|---|---|---|
| wrappers.dfy | `Wrappers` | `Option`, `Result`, the `throw new Error(prefix + message)` idiom, JavaScript `\|\|` on strings |
| strings.dfy | `Strings` | prefixes, suffixes, `includes` (proved equal to an existential occurrence), `join` |
| registry.dfy | `Registry` | the 31-entry `AI_MODELS` table as an immutable map |
| prompts.dfy | `Prompts` | prompt builders, per-feature prompt tables and the Diamond-Grade search query |
| aiservice.dfy | `AIService` | task-to-model map, `chat` defaults and billing, cost estimate, recommended model, per-feature requests |
| consensus.dfy | `Consensus` | `getMultiModelConsensus` (loop method proved equal to a functional definition) and the label rule |
| diamond.dfy | `Diamond` | `performDiamondGradeAnalysis`, `performDeepSearch`, `generateComprehensivePRD` and both fallbacks |
| route.dfy | `Route` | POST validation, the 400/500/200 mapping and the ignored save failure; GET's ten most recent rows |
| server.dfy | `Server` | `processAIRequest` and the `ai-request` emit trace |

## Model

| member | source | states |
|---|---|---|
| Wrappers.Wrap | src/lib/ai.ts:768-771 | a failure's message gets the prefix in front of it, and a success passes through unchanged |
| Wrappers.OrElse | src/lib/ai.ts:494 | `s \|\| d` on a string is `s` unless `s` is empty, otherwise `d` |
| Wrappers.OptOrElse | src/lib/ai.ts:745 | `o \|\| d` on an optional string is its value when present and non-empty, otherwise `d` |
| Strings.ContainsIffOccurs | src/lib/ai.ts:661-665 | the recursive `includes` test holds exactly when the substring occurs at some position |
| Strings.JoinKeepsParts | src/lib/ai.ts:611 | every part of `join(parts, sep)` occurs in the joined string |
| Registry.Models | src/lib/ai.ts:160-416 | every registered model has a positive cost, a positive token limit and at least one capability |
| Registry.Lookup | src/lib/ai.ts:496 | the lookup hits exactly the registered ids, returns their entry, and every hit has a positive cost |
| Prompts.BuildContentGenerationPrompt | src/lib/ai.ts:600-617 | the prompt starts with the type/tone/length head, ends with the fixed closing sentence, and is at least their combined length |
| Prompts.FalsyOptionalsAreAbsent | src/lib/ai.ts:606-612 | for any request, an empty audience gives the prompt a missing audience gives, and an empty keyword list the prompt a missing list gives, each whatever the other field holds; with neither, the prompt is the head plus the closing |
| Prompts.ContentUserMessage | src/lib/ai.ts:522 | the user message is the fixed `Generate <type> about: ` lead followed by the topic, which reads back unchanged |
| Prompts.AudienceReachesPrompt | src/lib/ai.ts:606-608 | a non-empty audience appears in the prompt inside its clause |
| Prompts.KeywordsReachPrompt | src/lib/ai.ts:610-612 | every keyword of the list appears in the prompt |
| Prompts.CodeTaskKeysRoundTrip | src/lib/ai.ts:620-629 | each of the six `task` keys reads back to its own task and back again, so the instruction table is keyed faithfully |
| Prompts.CodeInstructionInjective | src/lib/ai.ts:620-627 | no two code tasks share an instruction text |
| Prompts.BuildCodeAssistancePrompt | src/lib/ai.ts:619-630 | the prompt names the language first and ends with the instruction for the requested task |
| Prompts.CodePromptNamesLanguage | src/lib/ai.ts:629 | for one task, two prompts are equal only when they name the same language |
| Prompts.CodePromptNamesTask | src/lib/ai.ts:620-629 | for languages of one length, two equal prompts come from the same language and the same task |
| Prompts.CodeUserMessage | src/lib/ai.ts:536 | the user message starts with the code followed by the task name; it ends with `\nContext: ` and the context when a non-empty context is given, and is exactly that prefix otherwise |
| Prompts.EnhancementPrompt | src/lib/ai.ts:545 | the editor prompt has a fixed lead and tail with the enhancement's key between them, and that key reads back to the enhancement asked for |
| Prompts.EnhancementPromptInjective | src/lib/ai.ts:545 | distinct enhancements get distinct editor prompts |
| Prompts.EnhancementUserMessage | src/lib/ai.ts:550 | the user message starts with the text to enhance; it ends with `\nContext: ` and the context when a non-empty context is given, and is exactly that prefix otherwise |
| Prompts.DataAnalysisPrompt | src/lib/ai.ts:573 | the analysis prompt is a fixed lead, the analysis type and a fixed tail, and nothing else |
| Prompts.DataAnalysisPromptInjective | src/lib/ai.ts:573 | distinct analysis types get distinct prompts, so the type can be read back |
| Prompts.RecommendationPrompt | src/lib/ai.ts:587 | the recommendation prompt has a fixed lead and tail with the kind's key between them, and that key reads back to the kind asked for |
| Prompts.RecommendationPromptInjective | src/lib/ai.ts:587 | distinct recommendation kinds get distinct prompts |
| Prompts.SearchKindKeysRoundTrip | src/lib/ai.ts:633-640 | each of the four search `type` keys reads back to its own kind and back again |
| Prompts.BuildSearchPrompt | src/lib/ai.ts:632-641 | the prompt for a kind is the entry the string-keyed table holds under that kind's `type` key |
| Prompts.SearchPromptTable | src/lib/ai.ts:633-640 | the string-keyed table has an entry exactly for the four search types, each entry is the prompt of that type's kind, and no two kinds share a prompt |
| Prompts.SearchQuery | src/lib/ai.ts:699 | the query starts with the industry and a space, and ends with the project type and the fixed tail |
| Prompts.SearchQueryRoundTrip | src/lib/ai.ts:699 | for an industry without spaces, parsing the query gives back the industry and the project type |
| Prompts.ParseSearchQuerySound | src/lib/ai.ts:699 | whatever the parser accepts is exactly the query built from the parts it returns |
| AIService.TaskOf | src/lib/ai.ts:470-477 | a task name is recognised exactly when it is one of the six keys of the task map |
| AIService.ModelForTask | src/lib/ai.ts:470-477 | every task's model id is non-empty, whether it comes from the environment or the default |
| AIService.GetModelForTask | src/lib/ai.ts:469-480 | a known task gets its mapped model, and any other name gets the chat model |
| AIService.TaskKeys | src/lib/ai.ts:471-476 | each of the six key strings selects its own task's model |
| AIService.FixedTaskModelsRegistered | src/lib/ai.ts:475-476 | the analysis and research models, which the environment cannot override, are registry entries |
| AIService.UnknownTaskIsChat | src/lib/ai.ts:479 | an unknown task name resolves to the same model as `'chat'` |
| AIService.EnvOverrides | src/lib/ai.ts:471-474 | for each of the content, code, chat and fast models, a non-empty environment value overrides the default, and an empty or missing one yields the default (claude-3-opus, gpt-4, gpt-4-turbo and gpt-3.5-turbo respectively) |
| AIService.Resolve | src/lib/ai.ts:484-491 | a missing or falsy model, temperature or token cap gets the chat model, 0.7 or 1000 respectively; streaming happens only when it is requested as true |
| AIService.ResolveIdempotent | src/lib/ai.ts:484-491 | resolving settings that are already resolved changes nothing |
| AIService.FalsySettingsAreMissing | src/lib/ai.ts:484-491 | a 0 temperature, a 0 token cap, an empty model and a false stream flag behave exactly like missing ones |
| AIService.UnitCost | src/lib/ai.ts:496-498 | the price per 1000 tokens is the registry cost for a registered model, otherwise 0.01, and is always positive |
| AIService.TwoTermCost | src/lib/ai.ts:497-498 | pricing the two token counts separately equals pricing their sum; the total is non-negative, and zero only when no tokens were used |
| AIService.TokenCost | src/lib/ai.ts:497-498 | the cost is (prompt + completion tokens) × price / 1000; it is non-negative, and zero exactly when no tokens were used |
| AIService.Chat | src/lib/ai.ts:482-514 | a provider failure becomes the prefixed error; on success the reply carries the resolved model, the content (or `''`) and the usage (or all zeros), billed at that model's price, so missing usage costs 0 |
| AIService.GetCostEstimate | src/lib/ai.ts:673-678 | an unregistered id estimates 0; a registered one estimates tokens × registry cost / 1000, never negative for a non-negative count |
| AIService.PricedTokens | src/lib/ai.ts:677 | tokens × price / 1000, non-negative for a non-negative token count |
| AIService.EstimateMatchesBilling | src/lib/ai.ts:673-678 | for a registered model, estimating the tokens a reply used gives exactly what `chat` bills |
| AIService.SamePriceSameCost | src/lib/ai.ts:673-678 | at one price, the one-term estimate equals the two-term bill |
| AIService.UnregisteredEstimateDiffers | src/lib/ai.ts:673-678 | for an unregistered model the estimate is 0, while `chat` bills a positive 0.01 per 1000 tokens |
| AIService.GptFourUnregistered | src/lib/ai.ts:662 | `openai/gpt-4`, the default code model and a recommendation, is not in the registry |
| AIService.GetRecommendedModel | src/lib/ai.ts:644-670 | the result is one of five ids; fast+low always gives gpt-3.5-turbo; claude-3-opus is chosen exactly when fast+low does not hold and the request is complex with a high budget; gpt-4 exactly when neither budget rule applies and the task contains `code`; pplx-70b-online exactly when neither budget rule applies, the task lacks `code` and contains `research` or `search` |
| AIService.RecommendationRegistered | src/lib/ai.ts:653-669 | every recommendation except gpt-4 is a registry entry |
| AIService.BudgetRulesIgnoreTask | src/lib/ai.ts:653-659 | when a budget rule applies, the task text has no influence |
| AIService.CodeOutranksResearch | src/lib/ai.ts:661-666 | a task containing `code` gets gpt-4 even when it also mentions research or search |
| AIService.PlainTaskGetsTurbo | src/lib/ai.ts:661-669 | a task mentioning neither `code` nor `search` (and so not `research`) falls through to gpt-4-turbo |
| AIService.ResearchMentionsSearch | src/lib/ai.ts:665 | any task that mentions `research` also mentions `search`, so the first test of the disjunction adds nothing |
| AIService.TokenCap | src/lib/ai.ts:526 | the cap is 500 tokens for short content, 1000 for medium and 2000 for long |
| AIService.SystemAndUser | src/lib/ai.ts:520-523 | the request holds exactly a system message and then a user message |
| AIService.GenerateContentRequest | src/lib/ai.ts:516-528 | the call runs on the content model at temperature 0.8, capped by the length's token cap, and the messages are the built content prompt as the system message followed by the content user message |
| AIService.AssistCodeRequest | src/lib/ai.ts:530-542 | the call runs on the code model at temperature 0.3 with 1500 tokens, and the messages are the code prompt for the language and task followed by the code user message |
| AIService.EnhanceTextRequest | src/lib/ai.ts:544-556 | the call runs on the content model at temperature 0.6 with 1000 tokens, and the messages are the enhancement prompt followed by the enhancement user message |
| AIService.SearchModel | src/lib/ai.ts:566 | research searches use the research model, and all other searches use the chat model |
| AIService.SmartSearchRequest | src/lib/ai.ts:558-570 | the call runs on the search model at temperature 0.5 with 1000 tokens, and the messages are the search prompt for the kind followed by the query itself |
| AIService.AnalyzeDataRequest | src/lib/ai.ts:572-584 | the call runs on the analysis model at temperature 0.4 with 1500 tokens, and the messages are the analysis prompt for the type followed by the serialised data |
| AIService.RecommendationsRequest | src/lib/ai.ts:586-598 | the call runs on the analysis model at temperature 0.7 with 1200 tokens, and the messages are the recommendation prompt for the kind followed by the context |
| Consensus.EntryFor | src/lib/ai.ts:74-78 | a success records the reply and its confidence with no error; a failure records a null result, the error message and confidence 0 |
| Consensus.Entries | src/lib/ai.ts:56-79 | one entry per call, in call order |
| Consensus.Qualifying | src/lib/ai.ts:82 | the filter keeps no more entries than it is given; every kept entry is one of the given entries and has non-empty text and confidence above 0.5; every given entry that qualifies is kept |
| Consensus.Recommend | src/lib/ai.ts:93-102 | no qualifying result gives no consensus, and exactly one gives the single-model label; otherwise the average confidence picks Strong (> 0.8), Moderate (> 0.6) or Weak |
| Consensus.Fraction | src/lib/ai.ts:83 | the fraction is undefined (NaN) exactly for an empty model list, and lies in [0, 1] otherwise |
| Consensus.Aggregate | src/lib/ai.ts:51-91 | results keep the calls' length, order and models; the score is qualifying / requested and lies in [0, 1]; the label is computed from the qualifying results |
| Consensus.GetMultiModelConsensus | src/lib/ai.ts:51-91 | the loop that asks each model in turn and records its entry, followed by the filter and the label, returns exactly the functional aggregate |
| Consensus.QualifyingSnoc | src/lib/ai.ts:82 | filtering a list extended by one entry extends the filtered list by that entry exactly when it qualifies |
| Consensus.SumSnoc | src/lib/ai.ts:96 | the confidence sum of an extended list adds the new entry's confidence |
| Consensus.SumAtLeast | src/lib/ai.ts:96 | entries each at least `lo` sum to at least `lo` times their number |
| Consensus.WithoutTextNoneQualify | src/lib/ai.ts:82 | entries without text never qualify |
| Consensus.WeakUnreachable | src/lib/ai.ts:75-102 | with confidences drawn from [0.7, 1), the weak label is never produced |
| Consensus.QualifyingAreNonEmptyReplies | src/lib/ai.ts:75-83 | with confidences drawn from [0.7, 1), exactly the models that returned non-empty text qualify |
| Consensus.AllFailed | src/lib/ai.ts:76-94 | when every model fails, the score is 0 and the label is no consensus, and every model still has an entry |
| Consensus.FailureIsolated | src/lib/ai.ts:56-79 | turning one call into a failure changes only that model's entry |
| Consensus.SingleResultLabel | src/lib/ai.ts:95 | exactly one qualifying result reads 'Single model recommendation' |
| Diamond.AskAll | src/lib/ai.ts:51-56 | the consensus calls go to the listed models, in order |
| Diamond.PerformDeepSearch | src/lib/ai.ts:104-153 | the deep search succeeds exactly when both the search and the analysis call do; either failure is rethrown unchanged |
| Diamond.StructuredAnalysis | src/lib/ai.ts:841-873 | the fallback analysis has scores 75/70/80/75/35, success probability 85, five recommendations and six critical-path steps |
| Diamond.ReportedModel | src/lib/ai.ts:765 | the reported model is the selected model when it is non-empty, `glm/glm-4-plus` when it is missing or empty, and is never empty |
| Diamond.Interpret | src/lib/ai.ts:751-757 | a reply that parses is used as is, and one that does not gets the fallback |
| Diamond.PerformDiamondGradeAnalysis | src/lib/ai.ts:681-772 | the pipeline succeeds exactly when every stage does, and the first failing stage's message comes back behind the pipeline prefix; on success it reports the selected model, the consensus over the default models, the deep search for the built query stamped with the clock reading taken when it returned, the contextual analysis, the interpreted reply, and a timestamp from a second, independent clock reading |
| Diamond.FinalCallSettings | src/lib/ai.ts:744-748 | the final call runs on the reported model at temperature 0.1 with 4000 tokens, without streaming |
| Diamond.ReportedModelIsBilled | src/lib/ai.ts:745-765 | the model named in a successful result is the model `chat` answered and billed with |
| Diamond.ConsensusFailuresDoNotAbort | src/lib/ai.ts:695-703 | whatever the consensus models return, the pipeline succeeds or fails alike; only the consensus part of the result differs |
| Diamond.ConsensusCoversDefaultModels | src/lib/ai.ts:51 | a successful result's consensus lists the three default models in order and has a defined score |
| Diamond.ParseMissGivesFallback | src/lib/ai.ts:751-757 | when the final reply does not parse, the analysis is the constant fallback whatever the reply said |
| Diamond.StructuredPRD | src/lib/ai.ts:875-905 | the fallback PRD has three sections, all of high priority |
| Diamond.InterpretPRD | src/lib/ai.ts:822-827 | a PRD reply that parses is used as is, and one that does not gets the fallback |
| Diamond.GenerateComprehensivePRD | src/lib/ai.ts:775-839 | the PRD succeeds exactly when the call does; a failure carries the PRD prefix in front of the chat prefix; success reports glm-4-plus and the interpreted reply |
| Diamond.PRDCallSettings | src/lib/ai.ts:817-832 | the PRD call runs on glm-4-plus at temperature 0.2 with 4000 tokens, and that is the model reported |
| Route.ContextOf | src/app/api/diamond-grade-analysis/route.ts:57-66 | the context carries the three validated fields, and passes the other five exactly as received, missing or empty |
| Route.RowOf | src/app/api/diamond-grade-analysis/route.ts:70-94 | the stored row holds the save's id, the eight context fields as received, and the result's analysis, consensus, deep search, contextual analysis and timestamp unchanged |
| Route.HandlePost | src/app/api/diamond-grade-analysis/route.ts:34-122 | a body error gives 500; a missing or empty required field gives 400 (and only then) without calling the orchestration; an orchestration error gives 500 with the prefix; success echoes the result's parts and metadata; a row is stored exactly when the analysis succeeded and the save did |
| Route.SaveFailureIgnored | src/app/api/diamond-grade-analysis/route.ts:69-100 | a failed database save leaves the response unchanged |
| Route.OnlyThreeFieldsValidated | src/app/api/diamond-grade-analysis/route.ts:49 | validity does not depend on the five other fields |
| Route.PrefixAppearsTwice | src/app/api/diamond-grade-analysis/route.ts:115-120 | end to end, any failure of the pipeline on a valid body reaches the client as a 500 carrying the pipeline's message behind the handler's prefix, so the same prefix appears twice |
| Route.Insert | src/app/api/diamond-grade-analysis/route.ts:128-130 | inserting into a list sorted newest first keeps it sorted and adds exactly the new row |
| Route.SortByRecency | src/app/api/diamond-grade-analysis/route.ts:128-130 | the ordering is newest first and is a permutation of the stored rows |
| Route.Recent | src/app/api/diamond-grade-analysis/route.ts:128-131 | at most ten rows come back, ordered newest first |
| Route.ProjectAll | src/app/api/diamond-grade-analysis/route.ts:132-144 | each returned row is projected to the selected columns, in order |
| Route.HandleGet | src/app/api/diamond-grade-analysis/route.ts:124-160 | a store failure gives 500; otherwise the summaries are the projections of the ten most recent stored rows (all of them when fewer), newest first, with `count` equal to their number |
| Route.TailNoNewer | src/app/api/diamond-grade-analysis/route.ts:128-131 | in a list ordered newest first, no row after the cut is newer than any row before it |
| Route.RecentAreMostRecent | src/app/api/diamond-grade-analysis/route.ts:127-131 | the returned rows are stored rows, and no stored row left out is more recent than any returned |
| Route.SmallStoreReturnedWhole | src/app/api/diamond-grade-analysis/route.ts:131 | a store of at most ten rows is returned whole |
| Server.ProcessAIRequest | server.ts:77-89 | each of the three named types gets its own reply shape, and any other type gets the generic one; research has confidence 0.95, analytics has two insights, and the image reply carries the fixed URL and the prompt unchanged |
| Server.PromptRecoverable | server.ts:80-88 | the prompt can be read back from every reply except the analytics one |
| Server.AnalyticsIgnoresPrompt | server.ts:83-84 | the analytics reply is the same for every prompt |
| Server.HandleAIRequest | server.ts:43-60 | a well-formed request emits a processing notice and then the response, both to the room; a null or undefined payload emits only the error, to the sender |
| Server.TraceOrdering | server.ts:49-58 | a response always follows a processing notice to the same audience and never goes to the sender; an error trace goes to the sender alone and carries no response |

## Left out

- Network and persistence clients are left out: the OpenRouter and Z-AI clients, `web_search` and Prisma. Each appears only as the outcome it returned.
- `MCPIntegration.initialize`'s one-time `ZAI.create()` memoisation (src/lib/ai.ts:17-22) is left out. The pipeline sees one initialisation outcome, which is the only call that can fail for the consensus stage.
- `getContextualAnalysis` (src/lib/ai.ts:24-49), the consensus calls and the deep-search analysis call are kept only as their outcomes. Their call settings (model, temperature, token cap) are not modelled, because these are direct provider calls whose settings nothing else decides on.
- `Diamond.DeepSearch` keeps the query the search ran on in a `query` field. The object `performDeepSearch` returns (src/lib/ai.ts:144-148) has no such field; the model keeps it so that the link from the context to the search is visible in the result.
- `Math.random()` confidences are inputs. Only their range [0.7, 1) is modelled (`Consensus.SimulatedConfidence`).
- `JSON.stringify` and `JSON.parse` are left out. Parsing is a parameter, and the serialised prompt bodies of the consensus, deep-search, Diamond-Grade and PRD calls are not built: the final calls take their messages as an input.
- `Date`, ISO timestamps and `processingTime` are inputs (`now`, `processingTime`). The Diamond-Grade pipeline reads the clock twice (src/lib/ai.ts:147 and src/lib/ai.ts:764); the model takes the two readings as separate inputs (`Stages.searchClock` and `now`) and assumes no order between them.
- Floating point is modelled as exact `real`: the cost and the average confidence carry no IEEE rounding.
- JavaScript property lookup is left out. An id such as `toString` or `constructor` would find an inherited prototype member in `AI_MODELS`, in the task map and in the prompt tables. The model treats every id outside the table as a miss. For `getCostEstimate` such an id would give NaN instead of 0.
- Non-`Error` throws are left out. The `'Unknown error'` message for them is not modelled; every failure carries a message.
- Non-string values in the request body are left out. Fields are optional strings, so a number or object that JavaScript would interpolate as text is not represented, and neither is `undefined` rendered into a prompt. The same holds for the `ai-request` payload (server.ts:46): a payload such as `{}` or `{type:'research'}` destructures to `undefined` fields and yields `Processed: undefined` or `Research results for: undefined`, which the model, whose payload fields are strings, cannot represent.
- The socket transport is left out: rooms, `join-room`, connection logging, the HTTP bootstrap and CORS settings. The handler is modelled by its emit trace alone.
- Prompts.CodePromptNamesTask: the code prompt is shown to determine the task only for languages of equal length. With languages of different lengths, one instruction would have to end another for two prompts to coincide; that is not proved.
- Route.HandleGet: ties between equal timestamps come back in one fixed order (of two rows with one timestamp, the one stored earlier comes first). The database does not promise an order among ties, so only "newest first" is stated.
- `stream: true` responses are not modelled: `chat` always reads a complete reply.
- The other `AIService` entry points are left out (`generateContent`, `assistCode`, `enhanceText`, `smartSearch`, `analyzeData`, `getRecommendations`). They are modelled by the request they hand to `chat` (the `...Request` functions); the reply handling is `AIService.Chat` itself.

=== FILE: aiservice.dfy ===
/** The model-choice and billing rules of `AIService` (src/lib/ai.ts:468-678):
    the task-to-model table with its environment overrides, the defaults and
    cost of `chat`, `getCostEstimate`, `getRecommendedModel`, and the chat
    requests built by the task wrappers. The provider's reply is an input. */
module AIService {

  import opened Wrappers
  import opened Strings
  import Registry
  import Prompts

  // ---------------------------------------------------------------------
  // Task-to-model table
  // ---------------------------------------------------------------------

  /** The environment variables read by `getModelForTask`; `None` is unset. */
  datatype Env = Env(
    contentModel: Option<string>,   // DEFAULT_CONTENT_MODEL
    codeModel: Option<string>,      // DEFAULT_CODE_MODEL
    chatModel: Option<string>,      // DEFAULT_CHAT_MODEL
    fastModel: Option<string>)      // DEFAULT_FAST_MODEL

  /** The tasks of `taskModelMap`. */
  datatype Task = ContentGeneration | CodeAssistance | ChatTask | FastResponse | Analysis | ResearchTask

  const KnownTasks: set<string> :=
    {"content-generation", "code-assistance", "chat", "fast-response", "analysis", "research"}

  /** The task a key of `taskModelMap` names; `None` outside the table. */
  function TaskOf(name: string): (t: Option<Task>)
    ensures t.Some? <==> name in KnownTasks
  {
    if name == "content-generation" then Some(ContentGeneration)
    else if name == "code-assistance" then Some(CodeAssistance)
    else if name == "chat" then Some(ChatTask)
    else if name == "fast-response" then Some(FastResponse)
    else if name == "analysis" then Some(Analysis)
    else if name == "research" then Some(ResearchTask)
    else None
  }

  /** The entry of `taskModelMap` for a task: a set, non-empty variable wins over the built-in default. */
  function ModelForTask(env: Env, t: Task): (r: string)
    ensures r != ""
  {
    match t
    case ContentGeneration => OptOrElse(env.contentModel, "anthropic/claude-3-opus")
    case CodeAssistance => OptOrElse(env.codeModel, "openai/gpt-4")
    case ChatTask => OptOrElse(env.chatModel, "openai/gpt-4-turbo")
    case FastResponse => OptOrElse(env.fastModel, "openai/gpt-3.5-turbo")
    case Analysis => "anthropic/claude-3-opus"
    case ResearchTask => "perplexity/pplx-70b-online"
  }

  /** `getModelForTask`: the table entry, else the chat model. */
  function GetModelForTask(env: Env, task: string): (r: string)
    ensures r != ""
    ensures task !in KnownTasks ==> r == ModelForTask(env, ChatTask)
    ensures task in KnownTasks ==> r == ModelForTask(env, TaskOf(task).value)
  {
    match TaskOf(task)
    case Some(t) => ModelForTask(env, t)
    case None => OptOrElse(env.chatModel, "openai/gpt-4-turbo")
  }

  /** The six keys name the six tasks, so the typed table is the string-keyed one. */
  lemma TaskKeys(env: Env)
    ensures GetModelForTask(env, "content-generation") == ModelForTask(env, ContentGeneration)
    ensures GetModelForTask(env, "code-assistance") == ModelForTask(env, CodeAssistance)
    ensures GetModelForTask(env, "chat") == ModelForTask(env, ChatTask)
    ensures GetModelForTask(env, "fast-response") == ModelForTask(env, FastResponse)
    ensures GetModelForTask(env, "analysis") == ModelForTask(env, Analysis)
    ensures GetModelForTask(env, "research") == ModelForTask(env, ResearchTask)
  {
  }

  /** The two tasks without an override are served by registered models whatever the environment. */
  lemma FixedTaskModelsRegistered(env: Env)
    ensures ModelForTask(env, Analysis) in Registry.Models()
    ensures ModelForTask(env, ResearchTask) in Registry.Models()
  {
  }

  /** A task outside the table is served exactly like `'chat'`. */
  lemma UnknownTaskIsChat(env: Env, task: string)
    requires task !in KnownTasks
    ensures GetModelForTask(env, task) == GetModelForTask(env, "chat")
  {
    TaskKeys(env);
  }

  /** A set, non-empty variable overrides its task's default; an unset or
      empty one leaves the built-in default. */
  lemma EnvOverrides(env: Env)
    ensures env.contentModel.Some? && env.contentModel.value != ""
        ==> ModelForTask(env, ContentGeneration) == env.contentModel.value
    ensures env.codeModel.Some? && env.codeModel.value != ""
        ==> ModelForTask(env, CodeAssistance) == env.codeModel.value
    ensures env.fastModel.Some? && env.fastModel.value != ""
        ==> ModelForTask(env, FastResponse) == env.fastModel.value
    ensures env.chatModel.Some? && env.chatModel.value != ""
        ==> ModelForTask(env, ChatTask) == env.chatModel.value
    ensures (env.contentModel.None? || env.contentModel.value == "")
        ==> ModelForTask(env, ContentGeneration) == "anthropic/claude-3-opus"
    ensures (env.codeModel.None? || env.codeModel.value == "")
        ==> ModelForTask(env, CodeAssistance) == "openai/gpt-4"
    ensures (env.chatModel.None? || env.chatModel.value == "")
        ==> ModelForTask(env, ChatTask) == "openai/gpt-4-turbo"
    ensures (env.fastModel.None? || env.fastModel.value == "")
        ==> ModelForTask(env, FastResponse) == "openai/gpt-3.5-turbo"
  {
  }

  // ---------------------------------------------------------------------
  // chat
  // ---------------------------------------------------------------------

  datatype Role = System | User | Assistant
  datatype Message = Message(role: Role, content: string)

  /** The optional settings of an `AIRequest`. */
  datatype ChatOptions = ChatOptions(
    model: Option<string>,
    temperature: Option<real>,
    maxTokens: Option<int>,
    stream: Option<bool>)

  /** `AIRequest`: the messages plus settings that may each be left out. */
  datatype ChatRequest = ChatRequest(messages: seq<Message>, options: ChatOptions)

  /** The settings `chat` actually sends to the provider beside the messages. */
  datatype CallSettings = CallSettings(model: string, temperature: real, maxTokens: int, stream: bool)

  datatype Usage = Usage(promptTokens: nat, completionTokens: nat, totalTokens: nat)

  /** The provider's reply: `choices[0]?.message?.content` and `usage`, either possibly absent. */
  datatype Completion = Completion(content: Option<string>, usage: Option<Usage>)

  datatype AIResponse = AIResponse(content: string, model: string, usage: Usage, cost: real)

  const ChatErrorPrefix := "Failed to get AI response: "

  /** JavaScript's `x || d` on a number: 0 is falsy. */
  function NumberOr(o: Option<real>, d: real): real {
    if o.Some? && o.value != 0.0 then o.value else d
  }

  function IntOr(o: Option<int>, d: int): int {
    if o.Some? && o.value != 0 then o.value else d
  }

  /** The defaults of `chat`: each falsy or missing setting is replaced. */
  function Resolve(env: Env, o: ChatOptions): (c: CallSettings)
    ensures c.model != "" && c.temperature != 0.0 && c.maxTokens != 0
    ensures o.model.Some? && o.model.value != "" ==> c.model == o.model.value
    ensures (o.model.None? || o.model.value == "") ==> c.model == ModelForTask(env, ChatTask)
    ensures o.temperature.Some? && o.temperature.value != 0.0 ==> c.temperature == o.temperature.value
    ensures (o.temperature.None? || o.temperature.value == 0.0) ==> c.temperature == 0.7
    ensures o.maxTokens.Some? && o.maxTokens.value != 0 ==> c.maxTokens == o.maxTokens.value
    ensures (o.maxTokens.None? || o.maxTokens.value == 0) ==> c.maxTokens == 1000
    ensures c.stream <==> o.stream == Some(true)
  {
    CallSettings(
      OptOrElse(o.model, ModelForTask(env, ChatTask)),
      NumberOr(o.temperature, 0.7),
      IntOr(o.maxTokens, 1000),
      o.stream.Some? && o.stream.value)
  }

  /** The options that state every resolved setting explicitly. */
  function Explicit(c: CallSettings): ChatOptions {
    ChatOptions(Some(c.model), Some(c.temperature), Some(c.maxTokens), Some(c.stream))
  }

  /** Defaults are applied once: resolving already resolved settings changes nothing. */
  lemma ResolveIdempotent(env: Env, o: ChatOptions)
    ensures Resolve(env, Explicit(Resolve(env, o))) == Resolve(env, o)
  {
  }

  /** A zero temperature, a zero token cap, an empty model id and a false
      stream flag are the same as leaving them out. */
  lemma FalsySettingsAreMissing(env: Env, o: ChatOptions)
    ensures Resolve(env, o.(temperature := Some(0.0))) == Resolve(env, o.(temperature := None))
    ensures Resolve(env, o.(maxTokens := Some(0))) == Resolve(env, o.(maxTokens := None))
    ensures Resolve(env, o.(model := Some(""))) == Resolve(env, o.(model := None))
    ensures Resolve(env, o.(stream := Some(false))) == Resolve(env, o.(stream := None))
  {
  }

  /** The price per 1000 tokens `chat` bills: the registry cost, or 0.01 for an unregistered id. */
  function UnitCost(model: string): (u: real)
    ensures u > 0.0
    ensures Registry.Lookup(model).Some? ==> u == Registry.Lookup(model).value.cost
    ensures Registry.Lookup(model).None? ==> u == 0.01
  {
    match Registry.Lookup(model)
    case Some(info) => if info.cost != 0.0 then info.cost else 0.01
    case None => 0.01
  }

  /** The arithmetic behind the billing: the two per-kind terms add up to
      the total tokens at the unit price, which is never negative and zero
      only when no token was used. */
  lemma TwoTermCost(p: real, c: real, u: real)
    requires p >= 0.0 && c >= 0.0 && u > 0.0
    ensures p * u / 1000.0 + c * u / 1000.0 == (p + c) * u / 1000.0
    ensures (p + c) * u / 1000.0 >= 0.0
    ensures (p + c) * u / 1000.0 == 0.0 <==> p + c == 0.0
  {
    assert (p + c) * u == p * u + c * u;
    assert (p + c) * u >= 0.0;
    if p + c > 0.0 {
      assert (p + c) * u > 0.0;
    }
  }

  /** The two-term cost expression of `chat`, at unit price `u`. */
  function TokenCost(usage: Usage, u: real): (cost: real)
    requires u > 0.0
    ensures cost == (usage.promptTokens + usage.completionTokens) as real * u / 1000.0
    ensures cost >= 0.0
    ensures cost == 0.0 <==> usage.promptTokens + usage.completionTokens == 0
  {
    var p := usage.promptTokens as real;
    var c := usage.completionTokens as real;
    TwoTermCost(p, c, u);
    (p * u / 1000.0) + (c * u / 1000.0)
  }

  /** What `chat` bills for `usage` on `model`. */
  function BilledCost(usage: Usage, model: string): real {
    TokenCost(usage, UnitCost(model))
  }

  const NoUsage := Usage(0, 0, 0)

  /** `chat`: resolve the settings, call the provider (its outcome is `reply`),
      normalise the reply and price it. */
  function Chat(env: Env, req: ChatRequest, reply: Result<Completion>): (r: Result<AIResponse>)
    ensures reply.Err? ==> r == Err(ChatErrorPrefix + reply.message)
    ensures reply.Ok? ==> r.Ok?
    ensures r.Ok? ==> r.value.model == Resolve(env, req.options).model
    ensures r.Ok? ==> r.value.content == reply.value.content.GetOr("")
    ensures r.Ok? ==> r.value.usage == reply.value.usage.GetOr(NoUsage)
    ensures r.Ok? ==> r.value.cost >= 0.0
    ensures r.Ok? ==> r.value.cost == BilledCost(r.value.usage, r.value.model)
    ensures r.Ok? && reply.value.usage.None? ==> r.value.usage == NoUsage && r.value.cost == 0.0
  {
    var call := Resolve(env, req.options);
    match reply
    case Err(m) => Err(ChatErrorPrefix + m)
    case Ok(completion) =>
      var content := match completion.content case Some(s) => OrElse(s, "") case None => "";
      var usage := match completion.usage case Some(u) => u case None => NoUsage;
      Ok(AIResponse(content, call.model, usage, BilledCost(usage, call.model)))
  }

  // ---------------------------------------------------------------------
  // getCostEstimate
  // ---------------------------------------------------------------------

  /** `getCostEstimate`: zero for an unregistered id, tokens times the registry price otherwise. */
  function GetCostEstimate(model: string, estimatedTokens: real): (r: real)
    ensures Registry.Lookup(model).None? ==> r == 0.0
    ensures Registry.Lookup(model).Some? ==> r == estimatedTokens * Registry.Lookup(model).value.cost / 1000.0
    ensures estimatedTokens >= 0.0 ==> r >= 0.0
  {
    var info := Registry.Lookup(model);
    if info.None? then 0.0 else PricedTokens(estimatedTokens, info.value.cost)
  }

  /** `tokens * price / 1000`, never negative for a non-negative count at a positive price. */
  function PricedTokens(tokens: real, price: real): (r: real)
    requires price > 0.0
    ensures tokens >= 0.0 ==> r >= 0.0
    ensures r == tokens * price / 1000.0
  {
    assert tokens >= 0.0 ==> tokens * price >= 0.0;
    (tokens * price) / 1000.0
  }

  /** For a registered model, the estimate of the tokens a reply used is exactly what `chat` bills. */
  lemma EstimateMatchesBilling(model: string, usage: Usage)
    requires model in Registry.Models()
    ensures GetCostEstimate(model, (usage.promptTokens + usage.completionTokens) as real) == BilledCost(usage, model)
  {
    var price := Registry.Lookup(model).value.cost;
    SamePriceSameCost(usage, price);
  }

  /** At one price, pricing the total token count equals the two-term bill. */
  lemma SamePriceSameCost(usage: Usage, price: real)
    requires price > 0.0
    ensures PricedTokens((usage.promptTokens + usage.completionTokens) as real, price) == TokenCost(usage, price)
  {
  }

  /** For an unregistered model the two disagree: the estimate is zero
      while `chat` bills 0.01 per 1000 tokens. `openai/gpt-4`, which the
      code-assistance default and `getRecommendedModel` hand out, is such a model. */
  lemma UnregisteredEstimateDiffers(model: string, usage: Usage)
    requires model !in Registry.Models()
    requires usage.promptTokens + usage.completionTokens > 0
    ensures GetCostEstimate(model, (usage.promptTokens + usage.completionTokens) as real) == 0.0
    ensures BilledCost(usage, model) == (usage.promptTokens + usage.completionTokens) as real * 0.01 / 1000.0
    ensures BilledCost(usage, model) > 0.0
  {
    assert Registry.Lookup(model).None?;
    assert UnitCost(model) == 0.01;
  }

  /** `openai/gpt-4` is not in the registry. */
  lemma GptFourUnregistered()
    ensures "openai/gpt-4" !in Registry.Models()
  {
  }

  // ---------------------------------------------------------------------
  // getRecommendedModel
  // ---------------------------------------------------------------------

  datatype Complexity = Simple | Average | Complex      // 'simple' | 'medium' | 'complex'
  datatype Speed = Quick | Balanced | Quality           // 'fast' | 'balanced' | 'quality'
  datatype Budget = Low | Mid | High                    // 'low' | 'medium' | 'high'

  datatype Requirements = Requirements(task: string, complexity: Complexity, speed: Speed, budget: Budget)

  const RecommendableModels: set<string> := {
    "openai/gpt-3.5-turbo", "anthropic/claude-3-opus", "openai/gpt-4",
    "perplexity/pplx-70b-online", "openai/gpt-4-turbo"}

  /** `getRecommendedModel`: five rules tried in order, the first that fires wins. */
  function GetRecommendedModel(req: Requirements): (r: string)
    ensures r in RecommendableModels
    ensures req.speed == Quick && req.budget == Low ==> r == "openai/gpt-3.5-turbo"
    ensures r == "anthropic/claude-3-opus" <==>
      !(req.speed == Quick && req.budget == Low) && req.complexity == Complex && req.budget == High
    ensures r == "openai/gpt-4" <==>
      !(req.speed == Quick && req.budget == Low) && !(req.complexity == Complex && req.budget == High)
      && Contains(req.task, "code")
    ensures r == "perplexity/pplx-70b-online" <==>
      !(req.speed == Quick && req.budget == Low) && !(req.complexity == Complex && req.budget == High)
      && !Contains(req.task, "code") && (Contains(req.task, "research") || Contains(req.task, "search"))
  {
    if req.speed == Quick && req.budget == Low then "openai/gpt-3.5-turbo"
    else if req.complexity == Complex && req.budget == High then "anthropic/claude-3-opus"
    else if Contains(req.task, "code") then "openai/gpt-4"
    else if Contains(req.task, "research") || Contains(req.task, "search") then "perplexity/pplx-70b-online"
    else "openai/gpt-4-turbo"
  }

  /** Every recommendation is a registered model except `openai/gpt-4`. */
  lemma RecommendationRegistered(req: Requirements)
    ensures GetRecommendedModel(req) in Registry.Models() <==> GetRecommendedModel(req) != "openai/gpt-4"
  {
  }

  /** The two budget rules outrank the task: under either, the task text does not matter. */
  lemma BudgetRulesIgnoreTask(req: Requirements, task: string)
    requires (req.speed == Quick && req.budget == Low) || (req.complexity == Complex && req.budget == High)
    ensures GetRecommendedModel(req.(task := task)) == GetRecommendedModel(req)
  {
  }

  /** Without a budget rule, a task mentioning code gets `openai/gpt-4` even if it also mentions research. */
  lemma CodeOutranksResearch(req: Requirements)
    requires !(req.speed == Quick && req.budget == Low) && !(req.complexity == Complex && req.budget == High)
    requires Occurs(req.task, "code")
    ensures GetRecommendedModel(req) == "openai/gpt-4"
  {
    ContainsIffOccurs(req.task, "code");
  }

  /** Without a budget rule, a task that mentions neither code nor search gets `openai/gpt-4-turbo`. */
  lemma PlainTaskGetsTurbo(req: Requirements)
    requires !(req.speed == Quick && req.budget == Low) && !(req.complexity == Complex && req.budget == High)
    requires !Occurs(req.task, "code") && !Occurs(req.task, "search")
    ensures GetRecommendedModel(req) == "openai/gpt-4-turbo"
  {
    ContainsIffOccurs(req.task, "code");
    ContainsIffOccurs(req.task, "search");
    ContainsIffOccurs(req.task, "research");
    ResearchMentionsSearch(req.task);
  }

  /** "research" contains "search", so the research test of the rule adds nothing. */
  lemma ResearchMentionsSearch(s: string)
    ensures Occurs(s, "research") ==> Occurs(s, "search")
  {
    if Occurs(s, "research") {
      var i :| OccursAt(s, "research", i);
      assert s[i + 2..i + 8] == s[i..i + 8][2..];
      assert OccursAt(s, "search", i + 2);
    }
  }

  // ---------------------------------------------------------------------
  // The task wrappers: the chat requests they build
  // ---------------------------------------------------------------------

  /** The token cap of `generateContent`. */
  function TokenCap(length: Prompts.Length): (n: int)
    ensures n > 0
    ensures length == Prompts.Short ==> n == 500
    ensures length == Prompts.Medium ==> n == 1000
    ensures length == Prompts.Long ==> n == 2000
  {
    match length
    case Short => 500
    case Medium => 1000
    case Long => 2000
  }

  function SystemAndUser(system: string, user: string): (m: seq<Message>)
    ensures |m| == 2 && m[0] == Message(System, system) && m[1] == Message(User, user)
  {
    [Message(System, system), Message(User, user)]
  }

  /** `generateContent`: the content model at temperature 0.8, capped by length. */
  function GenerateContentRequest(env: Env, req: Prompts.ContentRequest): (r: ChatRequest)
    ensures Resolve(env, r.options).model == ModelForTask(env, ContentGeneration)
    ensures Resolve(env, r.options).maxTokens == TokenCap(req.length)
    ensures Resolve(env, r.options).temperature == 0.8
    ensures |r.messages| == 2 && r.messages[0].content == Prompts.BuildContentGenerationPrompt(req)
    ensures r.messages == SystemAndUser(Prompts.BuildContentGenerationPrompt(req), Prompts.ContentUserMessage(req))
  {
    var options := ChatOptions(Some(ModelForTask(env, ContentGeneration)), Some(0.8), Some(TokenCap(req.length)), None);
    assert Resolve(env, options) == CallSettings(options.model.value, options.temperature.value, options.maxTokens.value, false);
    ChatRequest(SystemAndUser(Prompts.BuildContentGenerationPrompt(req), Prompts.ContentUserMessage(req)), options)
  }

  /** `assistCode`: the code model at temperature 0.3 with 1500 tokens. */
  function AssistCodeRequest(env: Env, code: string, language: string, task: Prompts.CodeTask, context: Option<string>): (r: ChatRequest)
    ensures Resolve(env, r.options).model == ModelForTask(env, CodeAssistance)
    ensures Resolve(env, r.options).maxTokens == 1500 && Resolve(env, r.options).temperature == 0.3
    ensures r.messages == SystemAndUser(Prompts.BuildCodeAssistancePrompt(language, task), Prompts.CodeUserMessage(code, task, context))
  {
    var options := ChatOptions(Some(ModelForTask(env, CodeAssistance)), Some(0.3), Some(1500), None);
    assert Resolve(env, options) == CallSettings(options.model.value, options.temperature.value, options.maxTokens.value, false);
    ChatRequest(SystemAndUser(Prompts.BuildCodeAssistancePrompt(language, task), Prompts.CodeUserMessage(code, task, context)), options)
  }

  /** `enhanceText`: the content model at temperature 0.6 with 1000 tokens. */
  function EnhanceTextRequest(env: Env, text: string, enhancement: Prompts.Enhancement, context: Option<string>): (r: ChatRequest)
    ensures Resolve(env, r.options).model == ModelForTask(env, ContentGeneration)
    ensures Resolve(env, r.options).maxTokens == 1000 && Resolve(env, r.options).temperature == 0.6
    ensures r.messages == SystemAndUser(Prompts.EnhancementPrompt(enhancement), Prompts.EnhancementUserMessage(text, context))
  {
    var options := ChatOptions(Some(ModelForTask(env, ContentGeneration)), Some(0.6), Some(1000), None);
    assert Resolve(env, options) == CallSettings(options.model.value, options.temperature.value, options.maxTokens.value, false);
    ChatRequest(SystemAndUser(Prompts.EnhancementPrompt(enhancement), Prompts.EnhancementUserMessage(text, context)), options)
  }

  /** The model of `smartSearch`: research queries go to the research
      model (the `'research'` entry of the task table), the rest to the chat model. */
  function SearchModel(env: Env, kind: Prompts.SearchKind): (m: string)
    ensures kind == Prompts.Research ==> m == ModelForTask(env, ResearchTask)
    ensures kind != Prompts.Research ==> m == ModelForTask(env, ChatTask)
    ensures m != ""
  {
    if kind == Prompts.Research then "perplexity/pplx-70b-online" else ModelForTask(env, ChatTask)
  }

  /** `smartSearch`. */
  function SmartSearchRequest(env: Env, query: string, kind: Prompts.SearchKind): (r: ChatRequest)
    ensures Resolve(env, r.options).model == SearchModel(env, kind)
    ensures Resolve(env, r.options).maxTokens == 1000 && Resolve(env, r.options).temperature == 0.5
    ensures |r.messages| == 2 && r.messages[1].content == query
    ensures r.messages == SystemAndUser(Prompts.BuildSearchPrompt(kind), query)
  {
    var options := ChatOptions(Some(SearchModel(env, kind)), Some(0.5), Some(1000), None);
    assert Resolve(env, options) == CallSettings(options.model.value, options.temperature.value, options.maxTokens.value, false);
    ChatRequest(SystemAndUser(Prompts.BuildSearchPrompt(kind), query), options)
  }

  /** `analyzeData`: `dataJson` is the serialised data. */
  function AnalyzeDataRequest(env: Env, dataJson: string, analysisType: string): (r: ChatRequest)
    ensures Resolve(env, r.options).model == ModelForTask(env, Analysis)
    ensures Resolve(env, r.options).maxTokens == 1500 && Resolve(env, r.options).temperature == 0.4
    ensures r.messages == SystemAndUser(Prompts.DataAnalysisPrompt(analysisType), dataJson)
  {
    var options := ChatOptions(Some(ModelForTask(env, Analysis)), Some(0.4), Some(1500), None);
    assert Resolve(env, options) == CallSettings(options.model.value, options.temperature.value, options.maxTokens.value, false);
    ChatRequest(SystemAndUser(Prompts.DataAnalysisPrompt(analysisType), dataJson), options)
  }

  /** `getRecommendations`. */
  function RecommendationsRequest(env: Env, context: string, kind: Prompts.RecommendationKind): (r: ChatRequest)
    ensures Resolve(env, r.options).model == ModelForTask(env, Analysis)
    ensures Resolve(env, r.options).maxTokens == 1200 && Resolve(env, r.options).temperature == 0.7
    ensures r.messages == SystemAndUser(Prompts.RecommendationPrompt(kind), context)
  {
    var options := ChatOptions(Some(ModelForTask(env, Analysis)), Some(0.7), Some(1200), None);
    assert Resolve(env, options) == CallSettings(options.model.value, options.temperature.value, options.maxTokens.value, false);
    ChatRequest(SystemAndUser(Prompts.RecommendationPrompt(kind), context), options)
  }
}

=== FILE: consensus.dfy ===
/** Multi-model consensus (`MCPIntegration.getMultiModelConsensus` and
    `generateConsensusRecommendation`, src/lib/ai.ts:51-102).

    The models are asked one after another; what each call produced is an
    input (`Call`). A failed call is recorded and never stops the later
    ones. The confidence attached to a reply is an input too: the source
    draws it as `Math.random() * 0.3 + 0.7`, whose range is captured by
    `SimulatedConfidence`. */
module Consensus {

  import opened Wrappers

  /** What one model call produced: the reply text (which may be absent)
      with the confidence attached to it, or the message of the error thrown. */
  datatype Outcome = Replied(content: Option<string>, confidence: real) | Failed(message: string)

  datatype Call = Call(model: string, outcome: Outcome)

  /** One element of `results`: `{model, result, confidence}` on success,
      `{model, result: null, error, confidence: 0}` on failure. */
  datatype Entry = Entry(model: string, result: Option<string>, error: Option<string>, confidence: real)

  datatype Label = NoConsensus | SingleModel | Strong | Moderate | Weak

  /** The returned object: `consensus` is `None` where JavaScript computes `0 / 0` (NaN). */
  datatype Report = Report(consensus: Option<real>, results: seq<Entry>, recommendation: Label)

  /** The default model list of `getMultiModelConsensus`. */
  const DefaultModels: seq<string> := ["glm/glm-4-plus", "glm/glm-4v-plus", "glm/glm-rd-plus"]

  function LabelText(l: Label): string {
    match l
    case NoConsensus => "No consensus reached"
    case SingleModel => "Single model recommendation"
    case Strong => "Strong consensus - High confidence recommendation"
    case Moderate => "Moderate consensus - Proceed with caution"
    case Weak => "Weak consensus - Additional analysis recommended"
  }

  /** The range of `Math.random() * 0.3 + 0.7`. */
  predicate SimulatedConfidence(c: real) {
    0.7 <= c < 1.0
  }

  /** The body of the `try`/`catch` for one model. */
  function EntryFor(c: Call): (e: Entry)
    ensures e.model == c.model
    ensures c.outcome.Failed? ==> e == Entry(c.model, None, Some(c.outcome.message), 0.0)
    ensures c.outcome.Replied? ==>
      e.result == c.outcome.content && e.error.None? && e.confidence == c.outcome.confidence
  {
    match c.outcome
    case Replied(content, confidence) => Entry(c.model, content, None, confidence)
    case Failed(message) => Entry(c.model, None, Some(message), 0.0)
  }

  /** The filter `r.result && r.confidence > 0.5`: a non-empty reply with confidence above one half. */
  predicate Qualifies(e: Entry) {
    e.result.Some? && e.result.value != "" && e.confidence > 0.5
  }

  function Entries(calls: seq<Call>): (es: seq<Entry>)
    ensures |es| == |calls|
    ensures forall i :: 0 <= i < |calls| ==> es[i] == EntryFor(calls[i])
  {
    seq(|calls|, i requires 0 <= i < |calls| => EntryFor(calls[i]))
  }

  /** `results.filter(...)`, kept in order. */
  function Qualifying(es: seq<Entry>): (q: seq<Entry>)
    ensures |q| <= |es|
    ensures forall k :: 0 <= k < |q| ==> Qualifies(q[k]) && q[k] in es
    ensures forall k :: 0 <= k < |es| && Qualifies(es[k]) ==> es[k] in q
    decreases |es|
  {
    if |es| == 0 then []
    else
      var last := es[|es| - 1];
      Qualifying(es[..|es| - 1]) + (if Qualifies(last) then [last] else [])
  }

  /** `reduce((sum, r) => sum + r.confidence, 0)`. */
  function SumConfidence(es: seq<Entry>): real
    decreases |es|
  {
    if |es| == 0 then 0.0 else SumConfidence(es[..|es| - 1]) + es[|es| - 1].confidence
  }

  function Average(es: seq<Entry>): real
    requires |es| > 0
  {
    SumConfidence(es) / |es| as real
  }

  /** `generateConsensusRecommendation`, applied to the qualifying results. */
  function Recommend(valid: seq<Entry>): (l: Label)
    ensures l == NoConsensus <==> |valid| == 0
    ensures l == SingleModel <==> |valid| == 1
    ensures l == Strong <==> |valid| >= 2 && Average(valid) > 0.8
    ensures l == Moderate <==> |valid| >= 2 && 0.6 < Average(valid) <= 0.8
    ensures l == Weak <==> |valid| >= 2 && Average(valid) <= 0.6
  {
    if |valid| == 0 then NoConsensus
    else if |valid| == 1 then SingleModel
    else
      var avg := Average(valid);
      if avg > 0.8 then Strong else if avg > 0.6 then Moderate else Weak
  }

  /** `validResults.length / models.length`. */
  function Fraction(count: nat, total: nat): (f: Option<real>)
    ensures total == 0 <==> f.None?
    ensures total > 0 && count <= total ==> 0.0 <= f.value <= 1.0
  {
    if total == 0 then None else Some(count as real / total as real)
  }

  /** The aggregation as a function of the ordered calls. */
  function Aggregate(calls: seq<Call>): (r: Report)
    ensures |r.results| == |calls|
    ensures forall i :: 0 <= i < |calls| ==> r.results[i].model == calls[i].model
    ensures forall i :: 0 <= i < |calls| ==> r.results[i] == EntryFor(calls[i])
    ensures |calls| == 0 <==> r.consensus.None?
    ensures |calls| > 0 ==> 0.0 <= r.consensus.value <= 1.0
    ensures |calls| > 0 ==> r.consensus.value == |Qualifying(r.results)| as real / |calls| as real
    ensures r.recommendation == Recommend(Qualifying(r.results))
  {
    var results := Entries(calls);
    var valid := Qualifying(results);
    Report(Fraction(|valid|, |calls|), results, Recommend(valid))
  }

  lemma QualifyingSnoc(es: seq<Entry>, e: Entry)
    ensures Qualifies(e) ==> Qualifying(es + [e]) == Qualifying(es) + [e]
    ensures !Qualifies(e) ==> Qualifying(es + [e]) == Qualifying(es)
  {
    assert (es + [e])[..|es|] == es;
    assert Qualifying(es) + [] == Qualifying(es);
  }

  /** Entries that carry no text never qualify. */
  lemma {:induction false} WithoutTextNoneQualify(es: seq<Entry>)
    requires forall k :: 0 <= k < |es| ==> es[k].result.None?
    ensures Qualifying(es) == []
    decreases |es|
  {
    if |es| > 0 {
      WithoutTextNoneQualify(es[..|es| - 1]);
    }
  }

  lemma SumSnoc(es: seq<Entry>, e: Entry)
    ensures SumConfidence(es + [e]) == SumConfidence(es) + e.confidence
  {
    assert (es + [e])[..|es|] == es;
  }

  lemma QuotientAtLeast(sum: real, n: real, lo: real)
    requires n > 0.0 && sum >= lo * n
    ensures sum / n >= lo
  {
  }

  /** `getMultiModelConsensus`: the models are asked in order and each
      failure is caught and recorded; the results are then filtered, scored
      and labelled. */
  method GetMultiModelConsensus(calls: seq<Call>) returns (report: Report)
    ensures report == Aggregate(calls)
  {
    var results: seq<Entry> := [];
    for i := 0 to |calls|
      invariant |results| == i
      invariant forall j :: 0 <= j < i ==> results[j] == EntryFor(calls[j])
    {
      var e: Entry;
      match calls[i].outcome {
        case Replied(content, confidence) =>
          e := Entry(calls[i].model, content, None, confidence);
        case Failed(message) =>
          e := Entry(calls[i].model, None, Some(message), 0.0);
      }
      results := results + [e];
    }
    assert results == Entries(calls);
    var valid := Qualifying(results);
    var verdict: Label;
    if |valid| == 0 {
      verdict := NoConsensus;
    } else if |valid| == 1 {
      verdict := SingleModel;
    } else {
      var avg := SumConfidence(valid) / |valid| as real;
      verdict := if avg > 0.8 then Strong else if avg > 0.6 then Moderate else Weak;
    }
    var consensus := if |calls| == 0 then None else Some(|valid| as real / |calls| as real);
    report := Report(consensus, results, verdict);
  }

  // ---------------------------------------------------------------------
  // Properties
  // ---------------------------------------------------------------------

  /** A sum of confidences that are each at least `lo` is at least `lo` per entry. */
  lemma {:induction false} SumAtLeast(es: seq<Entry>, lo: real)
    requires forall k :: 0 <= k < |es| ==> es[k].confidence >= lo
    ensures SumConfidence(es) >= lo * |es| as real
    decreases |es|
  {
    if |es| > 0 {
      SumAtLeast(es[..|es| - 1], lo);
    }
  }

  /** With confidences drawn from [0.7, 1) the average of two or more
      qualifying results is above 0.6, so the weak label never appears. */
  lemma WeakUnreachable(calls: seq<Call>)
    requires forall i :: 0 <= i < |calls| && calls[i].outcome.Replied? ==> SimulatedConfidence(calls[i].outcome.confidence)
    ensures Aggregate(calls).recommendation != Weak
  {
    var results := Entries(calls);
    var valid := Qualifying(results);
    forall k | 0 <= k < |valid|
      ensures valid[k].confidence >= 0.7
    {
      var i :| 0 <= i < |results| && results[i] == valid[k];
      assert calls[i].outcome.Replied?;
    }
    SumAtLeast(valid, 0.7);
    if |valid| >= 2 {
      QuotientAtLeast(SumConfidence(valid), |valid| as real, 0.7);
    }
  }

  /** The number of calls that returned non-empty text. */
  function NonEmptyReplies(calls: seq<Call>): nat
    decreases |calls|
  {
    if |calls| == 0 then 0
    else
      var last := calls[|calls| - 1].outcome;
      NonEmptyReplies(calls[..|calls| - 1])
      + (if last.Replied? && last.content.Some? && last.content.value != "" then 1 else 0)
  }

  /** With confidences drawn from [0.7, 1), a result qualifies exactly when
      its model returned non-empty text, so the consensus fraction is the
      share of models that did. */
  lemma {:induction false} QualifyingAreNonEmptyReplies(calls: seq<Call>)
    requires forall i :: 0 <= i < |calls| && calls[i].outcome.Replied? ==> SimulatedConfidence(calls[i].outcome.confidence)
    ensures |Qualifying(Entries(calls))| == NonEmptyReplies(calls)
    decreases |calls|
  {
    if |calls| > 0 {
      var init := calls[..|calls| - 1];
      QualifyingAreNonEmptyReplies(init);
      assert Entries(calls) == Entries(init) + [EntryFor(calls[|calls| - 1])];
      QualifyingSnoc(Entries(init), EntryFor(calls[|calls| - 1]));
    }
  }

  /** When every model fails, nothing qualifies: the fraction is zero and there is no consensus. */
  lemma AllFailed(calls: seq<Call>)
    requires |calls| > 0
    requires forall i :: 0 <= i < |calls| ==> calls[i].outcome.Failed?
    ensures Aggregate(calls).consensus == Some(0.0)
    ensures Aggregate(calls).recommendation == NoConsensus
    ensures |Aggregate(calls).results| == |calls|
  {
    var results := Entries(calls);
    assert forall k :: 0 <= k < |results| ==> results[k].result.None?;
    WithoutTextNoneQualify(results);
  }

  /** A failure is isolated: turning one call into a failure changes that
      model's entry only. */
  lemma FailureIsolated(calls: seq<Call>, j: nat, message: string)
    requires j < |calls|
    ensures var other := Aggregate(calls[j := Call(calls[j].model, Failed(message))]);
      && |other.results| == |calls|
      && other.results[j] == Entry(calls[j].model, None, Some(message), 0.0)
      && forall i :: 0 <= i < |calls| && i != j ==> other.results[i] == Aggregate(calls).results[i]
  {
  }

  /** The label reads as the source's text; one qualifying result is never called a consensus. */
  lemma SingleResultLabel(calls: seq<Call>)
    requires |Qualifying(Aggregate(calls).results)| == 1
    ensures LabelText(Aggregate(calls).recommendation) == "Single model recommendation"
  {
  }
}

=== FILE: diamond.dfy ===
/** The Diamond-Grade analysis pipeline and the PRD generator
    (`performDiamondGradeAnalysis`, `performDeepSearch`,
    `getContextualAnalysis`, `generateComprehensivePRD` and their
    structured fallbacks, src/lib/ai.ts:24-49, 104-153, 680-905).

    Every external call is an input outcome (`Stages`). Parsing the model's
    JSON reply is the parameter `parse`. The clock is read twice: once when
    the deep search returns (`Stages.searchClock`) and once for the result
    (`now`), and the two readings are independent inputs. The
    prompt texts sent to the final call interpolate JSON serialisations and
    are taken as the input `messages`. */
module Diamond {

  import opened Wrappers
  import opened Strings
  import Prompts
  import Consensus
  import AIService

  /** The object handed to the pipeline. The three fields the HTTP handler
      validates are plain strings; the others may be missing. */
  datatype Context = Context(
    projectType: string,
    industry: string,
    targetAudience: string,
    businessGoals: Option<string>,
    technicalRequirements: Option<string>,
    constraints: Option<string>,
    successMetrics: Option<string>,
    selectedModel: Option<string>)

  datatype Detailed = Detailed(
    marketAnalysis: string,
    technicalAssessment: string,
    riskAssessment: string,
    opportunityAnalysis: string,
    implementationStrategy: string)

  /** A structured analysis, as parsed from the reply or built by the fallback. */
  datatype Analysis = Analysis(
    contextScore: int,
    complexityScore: int,
    feasibilityScore: int,
    innovationScore: int,
    riskScore: int,
    successProbability: int,
    recommendations: seq<string>,
    criticalPath: seq<string>,
    detailedAnalysis: Detailed)

  /** The outcome of every external call the pipeline makes, in call order. */
  datatype Stages = Stages(
    init: Result<()>,                          // ZAI.create() in initialize
    ask: string -> Consensus.Outcome,          // the consensus call to each model
    search: Result<string>,                    // web_search, its results serialised
    searchAnalysis: Result<Option<string>>,    // the deep-search chat's content
    searchClock: int,                          // the clock read when the deep search returns
    contextual: Result<Option<string>>,        // getContextualAnalysis' content
    final: Result<AIService.Completion>)       // the final chat through `chat`

  datatype DeepSearch = DeepSearch(query: string, searchResults: string, analysis: Option<string>, timestamp: int)

  datatype DiamondResult = DiamondResult(
    analysis: Analysis,
    consensus: Consensus.Report,
    deepSearch: DeepSearch,
    contextualAnalysis: Option<string>,
    timestamp: int,
    model: string)

  const DiamondErrorPrefix := "Failed to perform Diamond-Grade analysis: "
  const DefaultAnalysisModel := "glm/glm-4-plus"

  /** The consensus loop's calls: each model in order with what it returned. */
  function AskAll(models: seq<string>, ask: string -> Consensus.Outcome): (calls: seq<Consensus.Call>)
    ensures |calls| == |models|
    ensures forall i :: 0 <= i < |models| ==> calls[i] == Consensus.Call(models[i], ask(models[i]))
  {
    seq(|models|, i requires 0 <= i < |models| => Consensus.Call(models[i], ask(models[i])))
  }

  /** `performDeepSearch`: search, then analyse the hits; either failure is rethrown as is. */
  function PerformDeepSearch(query: string, search: Result<string>, analysis: Result<Option<string>>, now: int): (r: Result<DeepSearch>)
    ensures r.Ok? <==> search.Ok? && analysis.Ok?
    ensures search.Err? ==> r == Err(search.message)
    ensures search.Ok? && analysis.Err? ==> r == Err(analysis.message)
    ensures r.Ok? ==> r.value == DeepSearch(query, search.value, analysis.value, now)
  {
    var hits :- search;
    var text :- analysis;
    Ok(DeepSearch(query, hits, text, now))
  }

  /** The fallback's recommendations and critical path. */
  const FallbackRecommendations: seq<string> := [
    "Implement phased rollout strategy to mitigate risks",
    "Establish cross-functional team for optimal execution",
    "Leverage AI-powered analytics for continuous optimization",
    "Develop comprehensive testing framework for quality assurance",
    "Create stakeholder communication plan for transparency"]

  const FallbackCriticalPath: seq<string> := [
    "Requirements gathering and validation",
    "Technical architecture design",
    "Core functionality development",
    "Integration testing and validation",
    "User acceptance testing",
    "Deployment and monitoring setup"]

  const FallbackDetailed := Detailed(
    "Market analysis based on project context and industry trends.",
    "Technical feasibility assessment of proposed solutions.",
    "Comprehensive risk analysis with mitigation strategies.",
    "Identification of key opportunities and competitive advantages.",
    "Strategic implementation roadmap with key milestones.")

  /** `createStructuredAnalysis`: a constant record; the reply text is ignored. */
  function StructuredAnalysis(content: string): (a: Analysis)
    ensures a.contextScore == 75 && a.complexityScore == 70 && a.feasibilityScore == 80
    ensures a.innovationScore == 75 && a.riskScore == 35 && a.successProbability == 85
    ensures |a.recommendations| == 5 && |a.criticalPath| == 6
  {
    Analysis(75, 70, 80, 75, 35, 85, FallbackRecommendations, FallbackCriticalPath, FallbackDetailed)
  }

  /** The model the pipeline reports: `selectedModel || 'glm/glm-4-plus'`. */
  function ReportedModel(ctx: Context): (m: string)
    ensures m != ""
    ensures ctx.selectedModel.Some? && ctx.selectedModel.value != "" ==> m == ctx.selectedModel.value
    ensures ctx.selectedModel.None? || ctx.selectedModel.value == "" ==> m == DefaultAnalysisModel
  {
    OptOrElse(ctx.selectedModel, DefaultAnalysisModel)
  }

  /** The options of the final call. */
  function FinalOptions(ctx: Context): AIService.ChatOptions {
    AIService.ChatOptions(Some(ReportedModel(ctx)), Some(0.1), Some(4000), None)
  }

  /** The parsed reply, or the fallback when it does not parse. */
  function Interpret(content: string, parse: string -> Option<Analysis>): (a: Analysis)
    ensures parse(content).Some? ==> a == parse(content).value
    ensures parse(content).None? ==> a == StructuredAnalysis(content)
  {
    match parse(content)
    case Some(parsed) => parsed
    case None => StructuredAnalysis(content)
  }

  /** The body of the `try` block. */
  function RunStages(env: AIService.Env, ctx: Context, st: Stages, messages: seq<AIService.Message>,
                     parse: string -> Option<Analysis>, now: int): Result<DiamondResult>
  {
    var _ :- st.init;
    var consensus := Consensus.Aggregate(AskAll(Consensus.DefaultModels, st.ask));
    var deepSearch :- PerformDeepSearch(Prompts.SearchQuery(ctx.industry, ctx.projectType), st.search, st.searchAnalysis, st.searchClock);
    var contextual :- st.contextual;
    var reply :- AIService.Chat(env, AIService.ChatRequest(messages, FinalOptions(ctx)), st.final);
    Ok(DiamondResult(Interpret(reply.content, parse), consensus, deepSearch, contextual, now, ReportedModel(ctx)))
  }

  /** `performDiamondGradeAnalysis`: the stages in order; the first failure
      ends the pipeline and is rethrown behind the pipeline's prefix. */
  function PerformDiamondGradeAnalysis(env: AIService.Env, ctx: Context, st: Stages, messages: seq<AIService.Message>,
                                       parse: string -> Option<Analysis>, now: int): (r: Result<DiamondResult>)
    ensures r.Ok? <==> st.init.Ok? && st.search.Ok? && st.searchAnalysis.Ok? && st.contextual.Ok? && st.final.Ok?
    ensures r.Err? ==> IsPrefix(DiamondErrorPrefix, r.message)
    ensures st.init.Err? ==> r == Err(DiamondErrorPrefix + st.init.message)
    ensures st.init.Ok? && st.search.Err? ==> r == Err(DiamondErrorPrefix + st.search.message)
    ensures st.init.Ok? && st.search.Ok? && st.searchAnalysis.Err? ==> r == Err(DiamondErrorPrefix + st.searchAnalysis.message)
    ensures st.init.Ok? && st.search.Ok? && st.searchAnalysis.Ok? && st.contextual.Err? ==>
      r == Err(DiamondErrorPrefix + st.contextual.message)
    ensures st.init.Ok? && st.search.Ok? && st.searchAnalysis.Ok? && st.contextual.Ok? && st.final.Err? ==>
      r == Err(DiamondErrorPrefix + (AIService.ChatErrorPrefix + st.final.message))
    ensures r.Ok? ==> r.value.model == ReportedModel(ctx) && r.value.timestamp == now
    ensures r.Ok? ==> r.value.consensus == Consensus.Aggregate(AskAll(Consensus.DefaultModels, st.ask))
    ensures r.Ok? ==> r.value.deepSearch == DeepSearch(Prompts.SearchQuery(ctx.industry, ctx.projectType), st.search.value, st.searchAnalysis.value, st.searchClock)
    ensures r.Ok? ==> r.value.contextualAnalysis == st.contextual.value
    ensures r.Ok? ==> r.value.analysis == Interpret(st.final.value.content.GetOr(""), parse)
  {
    RunStages(env, ctx, st, messages, parse, now).Wrap(DiamondErrorPrefix)
  }

  // ---------------------------------------------------------------------
  // Properties of the pipeline
  // ---------------------------------------------------------------------

  /** The final call runs on the reported model, at temperature 0.1 with a
      4000-token cap: the model named in the result is the one billed. */
  lemma FinalCallSettings(env: AIService.Env, ctx: Context)
    ensures AIService.Resolve(env, FinalOptions(ctx)) == AIService.CallSettings(ReportedModel(ctx), 0.1, 4000, false)
  {
  }

  /** The reported model is the model `chat` answered with. */
  lemma ReportedModelIsBilled(env: AIService.Env, ctx: Context, st: Stages, messages: seq<AIService.Message>,
                              parse: string -> Option<Analysis>, now: int)
    requires st.init.Ok? && st.search.Ok? && st.searchAnalysis.Ok? && st.contextual.Ok? && st.final.Ok?
    ensures AIService.Chat(env, AIService.ChatRequest(messages, FinalOptions(ctx)), st.final).Ok?
    ensures PerformDiamondGradeAnalysis(env, ctx, st, messages, parse, now).value.model
         == AIService.Chat(env, AIService.ChatRequest(messages, FinalOptions(ctx)), st.final).value.model
  {
    FinalCallSettings(env, ctx);
  }

  /** Consensus failures are absorbed: whatever the consensus models return,
      the pipeline succeeds or fails alike, and only the consensus part of
      the result differs. */
  lemma ConsensusFailuresDoNotAbort(env: AIService.Env, ctx: Context, st: Stages, ask: string -> Consensus.Outcome,
                                    messages: seq<AIService.Message>, parse: string -> Option<Analysis>, now: int)
    ensures var r := PerformDiamondGradeAnalysis(env, ctx, st, messages, parse, now);
            var r' := PerformDiamondGradeAnalysis(env, ctx, st.(ask := ask), messages, parse, now);
      && (r.Ok? <==> r'.Ok?)
      && (r.Ok? ==> r'.value == r.value.(consensus := Consensus.Aggregate(AskAll(Consensus.DefaultModels, ask))))
      && (r.Err? ==> r' == r)
  {
  }

  /** The consensus part lists the three default models in order. */
  lemma ConsensusCoversDefaultModels(env: AIService.Env, ctx: Context, st: Stages, messages: seq<AIService.Message>,
                                     parse: string -> Option<Analysis>, now: int)
    requires st.init.Ok? && st.search.Ok? && st.searchAnalysis.Ok? && st.contextual.Ok? && st.final.Ok?
    ensures var c := PerformDiamondGradeAnalysis(env, ctx, st, messages, parse, now).value.consensus;
      && |c.results| == 3
      && c.results[0].model == "glm/glm-4-plus"
      && c.results[1].model == "glm/glm-4v-plus"
      && c.results[2].model == "glm/glm-rd-plus"
      && c.consensus.Some?
  {
    var calls := AskAll(Consensus.DefaultModels, st.ask);
    assert PerformDiamondGradeAnalysis(env, ctx, st, messages, parse, now).value.consensus == Consensus.Aggregate(calls);
    assert |calls| == 3;
  }

  /** When the final reply does not parse, the analysis is the constant
      fallback, whatever the reply said. */
  lemma ParseMissGivesFallback(env: AIService.Env, ctx: Context, st: Stages, messages: seq<AIService.Message>,
                               parse: string -> Option<Analysis>, now: int)
    requires st.init.Ok? && st.search.Ok? && st.searchAnalysis.Ok? && st.contextual.Ok? && st.final.Ok?
    requires parse(st.final.value.content.GetOr("")).None?
    ensures var a := PerformDiamondGradeAnalysis(env, ctx, st, messages, parse, now).value.analysis;
      && a == StructuredAnalysis("")
      && a.successProbability == 85 && a.riskScore == 35
      && |a.recommendations| == 5 && |a.criticalPath| == 6
  {
  }

  // ---------------------------------------------------------------------
  // generateComprehensivePRD
  // ---------------------------------------------------------------------

  datatype Priority = HighPriority | MediumPriority | LowPriority        // 'high' | 'medium' | 'low'
  datatype SectionStatus = Draft | InProgress | Completed | Reviewed     // 'in-progress', 'completed', ...

  datatype Section = Section(
    title: string,
    content: string,
    priority: Priority,
    status: SectionStatus,
    estimatedHours: nat,
    dependencies: seq<string>)

  datatype PRD = PRD(sections: seq<Section>)

  datatype PRDResult = PRDResult(prd: PRD, timestamp: int, model: string)

  const PRDErrorPrefix := "Failed to generate PRD: "
  const PRDModel := "glm/glm-4-plus"

  const ExecutiveSummary := "Executive Summary"
  const ProductVision := "Product Vision"
  const TargetAudienceAnalysis := "Target Audience Analysis"
  const ExecutiveSummaryText := "Comprehensive project overview with key objectives and success criteria."
  const ProductVisionText := "Strategic vision and long-term goals for the product."
  const TargetAudienceText := "Detailed analysis of target users and their needs."

  /** `createStructuredPRD`: three constant sections; the reply text is ignored. */
  function StructuredPRD(content: string): (p: PRD)
    ensures |p.sections| == 3
    ensures forall i :: 0 <= i < 3 ==> p.sections[i].priority == HighPriority
  {
    PRD([
      Section(ExecutiveSummary, ExecutiveSummaryText, HighPriority, Completed, 8, []),
      Section(ProductVision, ProductVisionText, HighPriority, Completed, 12, [ExecutiveSummary]),
      Section(TargetAudienceAnalysis, TargetAudienceText, HighPriority, InProgress, 16, [ProductVision])
    ])
  }

  function PRDOptions(): AIService.ChatOptions {
    AIService.ChatOptions(Some(PRDModel), Some(0.2), Some(4000), None)
  }

  function InterpretPRD(content: string, parse: string -> Option<PRD>): (p: PRD)
    ensures parse(content).Some? ==> p == parse(content).value
    ensures parse(content).None? ==> p == StructuredPRD(content)
  {
    match parse(content)
    case Some(parsed) => parsed
    case None => StructuredPRD(content)
  }

  /** `generateComprehensivePRD`: one call through `chat` on glm-4-plus; the
      analysis and context only feed the prompt (`messages`). */
  function GenerateComprehensivePRD(env: AIService.Env, messages: seq<AIService.Message>, reply: Result<AIService.Completion>,
                                    parse: string -> Option<PRD>, now: int): (r: Result<PRDResult>)
    ensures r.Ok? <==> reply.Ok?
    ensures reply.Err? ==> r == Err(PRDErrorPrefix + (AIService.ChatErrorPrefix + reply.message))
    ensures r.Ok? ==> r.value.model == PRDModel && r.value.timestamp == now
    ensures r.Ok? ==> r.value.prd == InterpretPRD(reply.value.content.GetOr(""), parse)
  {
    var result := (
      var response :- AIService.Chat(env, AIService.ChatRequest(messages, PRDOptions()), reply);
      Ok(PRDResult(InterpretPRD(response.content, parse), now, PRDModel)));
    result.Wrap(PRDErrorPrefix)
  }

  /** The PRD call runs on glm-4-plus at temperature 0.2 with a 4000-token
      cap, so the model named in the result is the one billed. */
  lemma PRDCallSettings(env: AIService.Env, messages: seq<AIService.Message>, reply: Result<AIService.Completion>,
                        parse: string -> Option<PRD>, now: int)
    ensures AIService.Resolve(env, PRDOptions()) == AIService.CallSettings(PRDModel, 0.2, 4000, false)
    ensures reply.Ok? ==>
      AIService.Chat(env, AIService.ChatRequest(messages, PRDOptions()), reply).value.model == GenerateComprehensivePRD(env, messages, reply, parse, now).value.model
  {
  }
}

=== FILE: prompts.dfy ===
/** Deterministic prompt construction of the AI service (src/lib/ai.ts):
    the system prompts of the content, code, text-enhancement, search, data
    and recommendation tasks, the user messages built beside them, and the
    web-search query of the Diamond-Grade analysis. */
module Prompts {

  import opened Wrappers
  import opened Strings

  // ---------------------------------------------------------------------
  // Content generation
  // ---------------------------------------------------------------------

  datatype ContentType = Blog | Article | ProductDescription | SocialMedia | Email | Documentation
  datatype Tone = Professional | Casual | Friendly | Formal | Enthusiastic
  datatype Length = Short | Medium | Long

  function ContentTypeName(t: ContentType): string {
    match t
    case Blog => "blog"
    case Article => "article"
    case ProductDescription => "product-description"
    case SocialMedia => "social-media"
    case Email => "email"
    case Documentation => "documentation"
  }

  function ToneName(t: Tone): string {
    match t
    case Professional => "professional"
    case Casual => "casual"
    case Friendly => "friendly"
    case Formal => "formal"
    case Enthusiastic => "enthusiastic"
  }

  function LengthName(l: Length): string {
    match l
    case Short => "short"
    case Medium => "medium"
    case Long => "long"
  }

  /** `ContentGenerationRequest`: `keywords` and `targetAudience` may be absent. */
  datatype ContentRequest = ContentRequest(
    topic: string,
    contentType: ContentType,
    tone: Tone,
    length: Length,
    keywords: Option<seq<string>>,
    targetAudience: Option<string>)

  const ContentClosing := "Create engaging, well-structured content that provides value to the reader."

  /** The three clauses every content prompt starts with. */
  function ContentHead(req: ContentRequest): string {
    "You are a professional " + ContentTypeName(req.contentType) + " writer. "
    + "Write in a " + ToneName(req.tone) + " tone. "
    + "The content should be " + LengthName(req.length) + " in length. "
  }

  const AudienceLead := "Target audience: "
  const KeywordLead := "Include these keywords naturally: "

  /** The audience clause, present only for a non-empty audience. */
  function AudienceClause(audience: Option<string>): string {
    if audience.Some? && audience.value != "" then AudienceLead + audience.value + ". " else ""
  }

  /** The keyword clause, present only for a non-empty keyword list. */
  function KeywordClause(keywords: Option<seq<string>>): string {
    if keywords.Some? && |keywords.value| > 0
    then KeywordLead + Join(keywords.value, ", ") + ". "
    else ""
  }

  /** `buildContentGenerationPrompt`. */
  function BuildContentGenerationPrompt(req: ContentRequest): (r: string)
    ensures IsPrefix(ContentHead(req), r)
    ensures IsSuffix(ContentClosing, r)
    ensures |r| >= |ContentHead(req)| + |ContentClosing|
  {
    ContentHead(req) + AudienceClause(req.targetAudience) + KeywordClause(req.keywords) + ContentClosing
  }

  /** An empty audience reads as no audience and an empty keyword list as
      no keywords, each independently of the other field; without either
      the prompt is the head plus the closing. */
  lemma FalsyOptionalsAreAbsent(req: ContentRequest)
    ensures BuildContentGenerationPrompt(req.(targetAudience := Some("")))
         == BuildContentGenerationPrompt(req.(targetAudience := None))
    ensures BuildContentGenerationPrompt(req.(keywords := Some([])))
         == BuildContentGenerationPrompt(req.(keywords := None))
    ensures BuildContentGenerationPrompt(req.(targetAudience := None, keywords := None))
         == ContentHead(req) + ContentClosing
  {
  }

  /** A non-empty audience is named in the prompt. */
  lemma AudienceReachesPrompt(req: ContentRequest)
    requires req.targetAudience.Some? && req.targetAudience.value != ""
    ensures Occurs(BuildContentGenerationPrompt(req), AudienceLead + req.targetAudience.value + ". ")
  {
    var head := ContentHead(req);
    var aud := AudienceClause(req.targetAudience);
    var rest := KeywordClause(req.keywords) + ContentClosing;
    OccursSelf(aud);
    OccursInConcat(head, aud, rest, aud);
    assert head + aud + rest == BuildContentGenerationPrompt(req);
  }

  /** Every keyword of the list is named in the prompt. */
  lemma KeywordsReachPrompt(req: ContentRequest)
    requires req.keywords.Some?
    ensures forall k :: 0 <= k < |req.keywords.value| ==> Occurs(BuildContentGenerationPrompt(req), req.keywords.value[k])
  {
    var ks := req.keywords.value;
    if |ks| > 0 {
      var front := ContentHead(req) + AudienceClause(req.targetAudience);
      var kw := KeywordClause(req.keywords);
      var joined := Join(ks, ", ");
      assert kw == KeywordLead + joined + ". ";
      assert front + kw + ContentClosing == BuildContentGenerationPrompt(req);
      JoinKeepsParts(ks, ", ");
      forall k | 0 <= k < |ks|
        ensures Occurs(BuildContentGenerationPrompt(req), ks[k])
      {
        OccursInConcat(KeywordLead, joined, ". ", ks[k]);
        OccursInConcat(front, kw, ContentClosing, ks[k]);
      }
    }
  }

  /** The user message of `generateContent`. */
  function ContentUserMessage(req: ContentRequest): (r: string)
    ensures IsPrefix("Generate " + ContentTypeName(req.contentType) + " about: ", r)
    ensures r[|"Generate " + ContentTypeName(req.contentType) + " about: "|..] == req.topic
  {
    "Generate " + ContentTypeName(req.contentType) + " about: " + req.topic
  }

  // ---------------------------------------------------------------------
  // Code assistance
  // ---------------------------------------------------------------------

  datatype CodeTask = Review | Optimize | Document | Debug | GenerateTests | Refactor

  function CodeTaskName(t: CodeTask): string {
    match t
    case Review => "review"
    case Optimize => "optimize"
    case Document => "document"
    case Debug => "debug"
    case GenerateTests => "generate-tests"
    case Refactor => "refactor"
  }

  /** Reads a `task` key back; any other string is not a task. */
  function CodeTaskOf(name: string): Option<CodeTask> {
    match name
    case "review" => Some(Review)
    case "optimize" => Some(Optimize)
    case "document" => Some(Document)
    case "debug" => Some(Debug)
    case "generate-tests" => Some(GenerateTests)
    case "refactor" => Some(Refactor)
    case _ => None
  }

  /** The task keys and the tasks correspond one to one, so keying the
      instruction table by the enumeration loses nothing. */
  lemma CodeTaskKeysRoundTrip(t: CodeTask, name: string)
    ensures CodeTaskOf(CodeTaskName(t)) == Some(t)
    ensures CodeTaskOf(name).Some? ==> CodeTaskName(CodeTaskOf(name).value) == name
  {
  }

  const ReviewInstruction := "Review the following code for bugs, performance issues, and best practices. Provide specific suggestions for improvement."
  const OptimizeInstruction := "Optimize the following code for better performance and readability. Explain your changes."
  const DocumentInstruction := "Generate comprehensive documentation for the following code, including function descriptions, parameter explanations, and usage examples."
  const DebugInstruction := "Debug the following code. Identify any issues and provide corrected code with explanations."
  const TestsInstruction := "Generate comprehensive unit tests for the following code. Include various test cases and edge cases."
  const RefactorInstruction := "Refactor the following code to improve its structure, readability, and maintainability. Explain your refactoring decisions."

  /** The per-task instruction table of `buildCodeAssistancePrompt`. */
  function CodeInstruction(t: CodeTask): string {
    match t
    case Review => ReviewInstruction
    case Optimize => OptimizeInstruction
    case Document => DocumentInstruction
    case Debug => DebugInstruction
    case GenerateTests => TestsInstruction
    case Refactor => RefactorInstruction
  }

  /** No two tasks share an instruction. */
  lemma CodeInstructionInjective(t1: CodeTask, t2: CodeTask)
    ensures CodeInstruction(t1) == CodeInstruction(t2) ==> t1 == t2
  {
    assert |ReviewInstruction| == 121 && |OptimizeInstruction| == 89 && |DocumentInstruction| == 137;
    assert |DebugInstruction| == 91 && |TestsInstruction| == 100 && |RefactorInstruction| == 123;
  }

  const ExpertLead := "You are an expert "
  const DeveloperTail := " developer. "

  /** `buildCodeAssistancePrompt`. */
  function BuildCodeAssistancePrompt(language: string, task: CodeTask): (r: string)
    ensures IsPrefix(ExpertLead + language + DeveloperTail, r)
    ensures IsSuffix(CodeInstruction(task), r)
  {
    ExpertLead + language + DeveloperTail + CodeInstruction(task)
  }

  /** For one task, the code prompt determines the language. */
  lemma CodePromptNamesLanguage(l1: string, l2: string, t: CodeTask)
    ensures BuildCodeAssistancePrompt(l1, t) == BuildCodeAssistancePrompt(l2, t) ==> l1 == l2
  {
    if BuildCodeAssistancePrompt(l1, t) == BuildCodeAssistancePrompt(l2, t) {
      var c := CodeInstruction(t);
      assert |ExpertLead + l1 + DeveloperTail + c| == |ExpertLead + l2 + DeveloperTail + c|;
      SplitFramed(ExpertLead, l1, l2, DeveloperTail, c, c);
    }
  }

  /** For languages of one length, the code prompt determines both the
      language and the task. */
  lemma CodePromptNamesTask(l1: string, l2: string, t1: CodeTask, t2: CodeTask)
    requires BuildCodeAssistancePrompt(l1, t1) == BuildCodeAssistancePrompt(l2, t2) && |l1| == |l2|
    ensures l1 == l2 && t1 == t2
  {
    SplitFramed(ExpertLead, l1, l2, DeveloperTail, CodeInstruction(t1), CodeInstruction(t2));
    CodeInstructionInjective(t1, t2);
  }

  /** The optional `\nContext: ...` tail of the code and enhancement user messages. */
  function ContextTail(context: Option<string>): string {
    if context.Some? && context.value != "" then "\nContext: " + context.value else ""
  }

  /** The user message of `assistCode`. */
  function CodeUserMessage(code: string, task: CodeTask, context: Option<string>): (r: string)
    ensures IsPrefix("Code:\n" + code + "\n\nTask: " + CodeTaskName(task), r)
    ensures context.Some? && context.value != "" ==> IsSuffix("\nContext: " + context.value, r)
    ensures context.None? || context.value == "" ==> r == "Code:\n" + code + "\n\nTask: " + CodeTaskName(task)
  {
    "Code:\n" + code + "\n\nTask: " + CodeTaskName(task) + ContextTail(context)
  }

  // ---------------------------------------------------------------------
  // Text enhancement, data analysis, recommendations
  // ---------------------------------------------------------------------

  datatype Enhancement = Grammar | Clarity | MoreProfessional | Creative | Concise | Expand

  function EnhancementName(e: Enhancement): string {
    match e
    case Grammar => "grammar"
    case Clarity => "clarity"
    case MoreProfessional => "professional"
    case Creative => "creative"
    case Concise => "concise"
    case Expand => "expand"
  }

  /** Reads an `enhancementType` back; any other string is not an enhancement. */
  function EnhancementOf(name: string): Option<Enhancement> {
    match name
    case "grammar" => Some(Grammar)
    case "clarity" => Some(Clarity)
    case "professional" => Some(MoreProfessional)
    case "creative" => Some(Creative)
    case "concise" => Some(Concise)
    case "expand" => Some(Expand)
    case _ => None
  }

  const EditorLead := "You are an expert editor. Enhance the given text to make it more "
  const EditorTail := ". Maintain the original meaning while improving the quality."

  /** The system prompt of `enhanceText`: it names the enhancement asked for. */
  function EnhancementPrompt(e: Enhancement): (r: string)
    ensures IsPrefix(EditorLead + EnhancementName(e), r) && IsSuffix(EditorTail, r)
    ensures |r| == |EditorLead| + |EnhancementName(e)| + |EditorTail|
    ensures EnhancementOf(r[|EditorLead|..|r| - |EditorTail|]) == Some(e)
  {
    var r := EditorLead + EnhancementName(e) + EditorTail;
    assert r[|EditorLead|..|r| - |EditorTail|] == EnhancementName(e);
    r
  }

  /** Distinct enhancements get distinct editor prompts. */
  lemma EnhancementPromptInjective(e1: Enhancement, e2: Enhancement)
    ensures EnhancementPrompt(e1) == EnhancementPrompt(e2) ==> e1 == e2
  {
  }

  /** The user message of `enhanceText`. */
  function EnhancementUserMessage(text: string, context: Option<string>): (r: string)
    ensures IsPrefix("Text to enhance: " + text, r)
    ensures context.Some? && context.value != "" ==> IsSuffix("\nContext: " + context.value, r)
    ensures context.None? || context.value == "" ==> r == "Text to enhance: " + text
  {
    "Text to enhance: " + text + ContextTail(context)
  }

  const AnalystLead := "You are a data analysis expert. Analyze the provided data and provide insights for: "
  const AnalystTail := ". Include trends, patterns, and actionable recommendations."

  /** The system prompt of `analyzeData`: the analysis type sits between a fixed lead and tail. */
  function DataAnalysisPrompt(analysisType: string): (r: string)
    ensures IsPrefix(AnalystLead + analysisType, r) && IsSuffix(AnalystTail, r)
    ensures |r| == |AnalystLead| + |analysisType| + |AnalystTail|
  {
    AnalystLead + analysisType + AnalystTail
  }

  /** The analysis type can be read back from the prompt. */
  lemma DataAnalysisPromptInjective(a1: string, a2: string)
    ensures DataAnalysisPrompt(a1) == DataAnalysisPrompt(a2) ==> a1 == a2
  {
    if DataAnalysisPrompt(a1) == DataAnalysisPrompt(a2) {
      CancelFrame(AnalystLead, a1, a2, AnalystTail);
    }
  }

  datatype RecommendationKind = Content | Products | Actions | Strategies

  function RecommendationKindName(k: RecommendationKind): string {
    match k
    case Content => "content"
    case Products => "products"
    case Actions => "actions"
    case Strategies => "strategies"
  }

  /** Reads a recommendation `type` back; any other string is not a kind. */
  function RecommendationKindOf(name: string): Option<RecommendationKind> {
    match name
    case "content" => Some(Content)
    case "products" => Some(Products)
    case "actions" => Some(Actions)
    case "strategies" => Some(Strategies)
    case _ => None
  }

  const RecommenderLead := "You are an expert recommendation engine. Based on the provided context, generate personalized "
  const RecommenderTail := " recommendations. Explain the reasoning behind each recommendation."

  /** The system prompt of `getRecommendations`: it names the kind asked for. */
  function RecommendationPrompt(k: RecommendationKind): (r: string)
    ensures IsPrefix(RecommenderLead + RecommendationKindName(k), r) && IsSuffix(RecommenderTail, r)
    ensures |r| == |RecommenderLead| + |RecommendationKindName(k)| + |RecommenderTail|
    ensures RecommendationKindOf(r[|RecommenderLead|..|r| - |RecommenderTail|]) == Some(k)
  {
    var r := RecommenderLead + RecommendationKindName(k) + RecommenderTail;
    assert r[|RecommenderLead|..|r| - |RecommenderTail|] == RecommendationKindName(k);
    r
  }

  /** Distinct kinds get distinct recommendation prompts. */
  lemma RecommendationPromptInjective(k1: RecommendationKind, k2: RecommendationKind)
    ensures RecommendationPrompt(k1) == RecommendationPrompt(k2) ==> k1 == k2
  {
  }

  // ---------------------------------------------------------------------
  // Search
  // ---------------------------------------------------------------------

  datatype SearchKind = General | Code | Research | CreativeSearch

  function SearchKindName(k: SearchKind): string {
    match k
    case General => "general"
    case Code => "code"
    case Research => "research"
    case CreativeSearch => "creative"
  }

  /** Reads a search `type` back; any other string is not a kind. */
  function SearchKindOf(name: string): Option<SearchKind> {
    match name
    case "general" => Some(General)
    case "code" => Some(Code)
    case "research" => Some(Research)
    case "creative" => Some(CreativeSearch)
    case _ => None
  }

  /** The search types and the kinds correspond one to one. */
  lemma SearchKindKeysRoundTrip(k: SearchKind, name: string)
    ensures SearchKindOf(SearchKindName(k)) == Some(k)
    ensures SearchKindOf(name).Some? ==> SearchKindName(SearchKindOf(name).value) == name
  {
  }

  const GeneralSearchPrompt := "You are a helpful assistant. Provide comprehensive and accurate information to answer the query."
  const CodeSearchPrompt := "You are a programming expert. Provide code examples and technical explanations to answer the query."
  const ResearchSearchPrompt := "You are a research assistant. Provide detailed, well-researched information with citations and sources."
  const CreativeSearchPrompt := "You are a creative expert. Provide innovative and imaginative responses to the query."

  /** The source's prompt object indexed by the raw `type` string: a key
      outside the four gives `undefined`. */
  function SearchPromptFor(typeName: string): Option<string> {
    match typeName
    case "general" => Some(GeneralSearchPrompt)
    case "code" => Some(CodeSearchPrompt)
    case "research" => Some(ResearchSearchPrompt)
    case "creative" => Some(CreativeSearchPrompt)
    case _ => None
  }

  /** `buildSearchPrompt`: the system prompt depends on the kind alone, and
      is the entry the string-keyed table holds under the kind's name. */
  function BuildSearchPrompt(kind: SearchKind): (r: string)
    ensures SearchPromptFor(SearchKindName(kind)) == Some(r)
  {
    match kind
    case General => GeneralSearchPrompt
    case Code => CodeSearchPrompt
    case Research => ResearchSearchPrompt
    case CreativeSearch => CreativeSearchPrompt
  }

  /** The table is defined exactly on the four search types, and no two
      kinds share a prompt. */
  lemma SearchPromptTable(name: string, k1: SearchKind, k2: SearchKind)
    ensures SearchPromptFor(name).Some? <==> SearchKindOf(name).Some?
    ensures SearchKindOf(name).Some? ==> SearchPromptFor(name) == Some(BuildSearchPrompt(SearchKindOf(name).value))
    ensures BuildSearchPrompt(k1) == BuildSearchPrompt(k2) ==> k1 == k2
  {
    assert |GeneralSearchPrompt| == 96 && |CodeSearchPrompt| == 99;
    assert |ResearchSearchPrompt| == 103 && |CreativeSearchPrompt| == 85;
  }

  // ---------------------------------------------------------------------
  // The web-search query of the Diamond-Grade analysis
  // ---------------------------------------------------------------------

  const QueryTail := " trends challenges opportunities 2024"

  /** The query `${industry} ${projectType} trends challenges opportunities 2024`. */
  function SearchQuery(industry: string, projectType: string): (q: string)
    ensures IsPrefix(industry + " ", q)
    ensures IsSuffix(projectType + QueryTail, q)
  {
    industry + " " + projectType + QueryTail
  }

  /** Reads a query back into industry and project type: strip the fixed
      tail, then split at the first space. */
  function ParseSearchQuery(q: string): Option<(string, string)> {
    if !IsSuffix(QueryTail, q) then None
    else
      var body := q[..|q| - |QueryTail|];
      match IndexOf(body, ' ')
      case None => None
      case Some(i) => Some((body[..i], body[i + 1..]))
  }

  /** The query loses nothing when the industry has no space in it. */
  lemma SearchQueryRoundTrip(industry: string, projectType: string)
    requires ' ' !in industry
    ensures ParseSearchQuery(SearchQuery(industry, projectType)) == Some((industry, projectType))
  {
    var q := SearchQuery(industry, projectType);
    var body := industry + " " + projectType;
    assert q[..|q| - |QueryTail|] == body;
    var idx := IndexOf(body, ' ');
    assert body[|industry|] == ' ';
    assert idx.Some? && idx.value == |industry|;
    assert body[..|industry|] == industry;
    assert body[|industry| + 1..] == projectType;
  }

  /** Conversely, every query that reads back was built from what it read. */
  lemma ParseSearchQuerySound(q: string, industry: string, projectType: string)
    requires ParseSearchQuery(q) == Some((industry, projectType))
    ensures ' ' !in industry
    ensures SearchQuery(industry, projectType) == q
  {
    var body := q[..|q| - |QueryTail|];
    var i := IndexOf(body, ' ').value;
    assert body == body[..i] + " " + body[i + 1..];
    assert q == body + QueryTail;
  }
}

=== FILE: registry.dfy ===
/** The static catalogue of models (`AI_MODELS`, src/lib/ai.ts:160-416):
    an immutable map from model id to its descriptor, looked up with a
    recoverable miss. */
module Registry {

  import opened Wrappers

  datatype Category = Premium | Balanced | Fast | Specialized

  /** One descriptor; `cost` is the price per 1000 tokens. */
  datatype ModelInfo = ModelInfo(
    name: string,
    provider: string,
    capabilities: seq<string>,
    maxTokens: nat,
    cost: real,
    category: Category)

  /** The catalogue. Every listed price and token limit is positive, and
      every model lists at least one capability. */
  function Models(): (m: map<string, ModelInfo>)
    ensures forall id :: id in m ==> m[id].cost > 0.0
    ensures forall id :: id in m ==> m[id].maxTokens > 0 && |m[id].capabilities| > 0
  {
    map[
      "openai/gpt-4-turbo" := ModelInfo("GPT-4 Turbo", "OpenAI", ["chat", "code", "reasoning", "creativity"], 128000, 0.01, Premium),
      "anthropic/claude-3-opus" := ModelInfo("Claude 3 Opus", "Anthropic", ["chat", "analysis", "writing", "reasoning"], 200000, 0.015, Premium),
      "google/gemini-pro" := ModelInfo("Gemini Pro", "Google", ["chat", "code", "analysis", "multimodal"], 32768, 0.00125, Balanced),
      "meta/llama-3-70b" := ModelInfo("Llama 3 70B", "Meta", ["chat", "code", "reasoning"], 8192, 0.00088, Balanced),
      "openai/gpt-3.5-turbo" := ModelInfo("GPT-3.5 Turbo", "OpenAI", ["chat", "simple-tasks"], 16385, 0.0005, Fast),
      "anthropic/claude-3-haiku" := ModelInfo("Claude 3 Haiku", "Anthropic", ["chat", "quick-responses"], 200000, 0.00025, Fast),
      "mistral/mistral-large" := ModelInfo("Mistral Large", "Mistral", ["code", "analysis", "multilingual"], 32768, 0.003, Specialized),
      "perplexity/pplx-70b-online" := ModelInfo("Perplexity PPLX 70B", "Perplexity", ["search", "research", "real-time-data"], 4096, 0.001, Specialized),
      "glm/glm-4-air" := ModelInfo("GLM-4-Air", "Zhipu AI", ["chat", "reasoning", "multilingual"], 128000, 0.0005, Fast),
      "glm/glm-4-airx" := ModelInfo("GLM-4-AirX", "Zhipu AI", ["chat", "reasoning", "code", "multilingual"], 128000, 0.0007, Balanced),
      "glm/glm-4" := ModelInfo("GLM-4", "Zhipu AI", ["chat", "reasoning", "code", "analysis", "multilingual"], 128000, 0.001, Balanced),
      "glm/glm-4-plus" := ModelInfo("GLM-4-Plus", "Zhipu AI", ["chat", "reasoning", "code", "analysis", "creativity", "multilingual"], 128000, 0.002, Premium),
      "glm/glm-4-0520" := ModelInfo("GLM-4-0520", "Zhipu AI", ["chat", "reasoning", "code", "analysis", "multilingual"], 128000, 0.0012, Balanced),
      "glm/glm-4-0521" := ModelInfo("GLM-4-0521", "Zhipu AI", ["chat", "reasoning", "code", "analysis", "multilingual"], 128000, 0.0012, Balanced),
      "glm/glm-4-0620" := ModelInfo("GLM-4-0620", "Zhipu AI", ["chat", "reasoning", "code", "analysis", "creativity", "multilingual"], 128000, 0.0015, Premium),
      "glm/glm-4-long" := ModelInfo("GLM-4-Long", "Zhipu AI", ["chat", "reasoning", "analysis", "long-context", "multilingual"], 1000000, 0.0025, Specialized),
      "glm/glm-4-long-c" := ModelInfo("GLM-4-Long-C", "Zhipu AI", ["chat", "reasoning", "analysis", "long-context", "multilingual"], 1000000, 0.0025, Specialized),
      "glm/glm-4v" := ModelInfo("GLM-4V", "Zhipu AI", ["chat", "reasoning", "vision", "multimodal", "multilingual"], 128000, 0.0018, Specialized),
      "glm/glm-4v-plus" := ModelInfo("GLM-4V-Plus", "Zhipu AI", ["chat", "reasoning", "vision", "multimodal", "creativity", "multilingual"], 128000, 0.0022, Premium),
      "glm/glm-z1-avg" := ModelInfo("GLM-Z1-Avg", "Zhipu AI", ["chat", "reasoning", "code", "multilingual"], 8192, 0.0008, Fast),
      "glm/glm-z1-preview" := ModelInfo("GLM-Z1-Preview", "Zhipu AI", ["chat", "reasoning", "code", "analysis", "multilingual"], 32768, 0.001, Balanced),
      "glm/glm-zero-preview" := ModelInfo("GLM-Zero-Preview", "Zhipu AI", ["chat", "reasoning", "code", "analysis", "multilingual"], 32768, 0.0011, Balanced),
      "glm/glm-zero1" := ModelInfo("GLM-Zero1", "Zhipu AI", ["chat", "reasoning", "code", "analysis", "multilingual"], 32768, 0.001, Balanced),
      "glm/glm-zero1-preview" := ModelInfo("GLM-Zero1-Preview", "Zhipu AI", ["chat", "reasoning", "code", "analysis", "multilingual"], 32768, 0.0011, Balanced),
      "glm/glm-rd" := ModelInfo("GLM-RD", "Zhipu AI", ["chat", "reasoning", "research", "multilingual"], 32768, 0.0013, Specialized),
      "glm/glm-rd-plus" := ModelInfo("GLM-RD-Plus", "Zhipu AI", ["chat", "reasoning", "research", "analysis", "multilingual"], 32768, 0.0016, Premium),
      "glm/glm-3-turbo" := ModelInfo("GLM-3-Turbo", "Zhipu AI", ["chat", "simple-tasks", "multilingual"], 128000, 0.0004, Fast),
      "glm/glm-3-turbo-plus" := ModelInfo("GLM-3-Turbo-Plus", "Zhipu AI", ["chat", "reasoning", "multilingual"], 128000, 0.0006, Fast),
      "glm/glm-130b" := ModelInfo("GLM-130B", "Zhipu AI", ["chat", "reasoning", "analysis", "multilingual"], 2048, 0.0008, Balanced),
      "glm/chatglm3-6b" := ModelInfo("ChatGLM3-6B", "Zhipu AI", ["chat", "simple-tasks", "multilingual"], 8192, 0.0003, Fast),
      "glm/chatglm3-6b-32k" := ModelInfo("ChatGLM3-6B-32K", "Zhipu AI", ["chat", "simple-tasks", "long-context", "multilingual"], 32768, 0.0004, Fast)
    ]
  }

  /** `AI_MODELS[id]`: the descriptor, or `None` on a miss. */
  function Lookup(id: string): (r: Option<ModelInfo>)
    ensures r.Some? <==> id in Models()
    ensures r.Some? ==> r.value == Models()[id]
    ensures r.Some? ==> r.value.cost > 0.0
  {
    if id in Models() then Some(Models()[id]) else None
  }
}

=== FILE: route.dfy ===
/** The `/api/diamond-grade-analysis` handler
    (src/app/api/diamond-grade-analysis/route.ts).

    The request body, the orchestration, the database write and the
    database read are inputs: the body as already decoded JSON (or the
    decoding error), the orchestration as a function of the context, the
    write as the id the store assigned (or its error), the read as the
    stored rows (or its error). */
module Route {

  import opened Wrappers
  import opened Strings
  import Consensus
  import Diamond

  /** The decoded body; each field may be missing. */
  datatype Body = Body(
    projectType: Option<string>,
    industry: Option<string>,
    targetAudience: Option<string>,
    businessGoals: Option<string>,
    technicalRequirements: Option<string>,
    constraints: Option<string>,
    successMetrics: Option<string>,
    selectedModel: Option<string>)

  /** A stored analysis: the request fields next to what the orchestration returned. */
  datatype Row = Row(
    id: string,
    projectType: string,
    industry: string,
    targetAudience: string,
    businessGoals: Option<string>,
    technicalRequirements: Option<string>,
    constraints: Option<string>,
    successMetrics: Option<string>,
    selectedModel: Option<string>,
    analysis: Diamond.Analysis,
    consensusData: Consensus.Report,
    searchData: Diamond.DeepSearch,
    contextualAnalysis: Option<string>,
    timestamp: int)

  /** The columns GET selects. */
  datatype Summary = Summary(
    id: string,
    projectType: string,
    industry: string,
    contextScore: int,
    complexityScore: int,
    feasibilityScore: int,
    innovationScore: int,
    riskScore: int,
    successProbability: int,
    timestamp: int,
    selectedModel: Option<string>)

  datatype Metadata = Metadata(timestamp: int, model: string, processingTime: int)

  datatype Response =
    | AnalysisOk(analysis: Diamond.Analysis, consensus: Consensus.Report, deepSearch: Diamond.DeepSearch,
                 contextualAnalysis: Option<string>, metadata: Metadata)
    | ListOk(analyses: seq<Summary>, count: nat)
    | Failure(status: nat, error: string)

  /** What one POST did: the response, the context handed to the
      orchestration (if it was called) and the row stored (if any). */
  datatype Handled = Handled(response: Response, orchestrated: Option<Diamond.Context>, stored: Option<Row>)

  const RequiredMessage := "Project type, industry, and target audience are required"
  const PostErrorPrefix := "Failed to perform Diamond-Grade analysis: "
  const FetchError := "Failed to fetch analyses"
  const RecentLimit := 10

  function StatusOf(r: Response): nat {
    if r.Failure? then r.status else 200
  }

  /** JavaScript truthiness of an optional string. */
  predicate Present(o: Option<string>) {
    o.Some? && o.value != ""
  }

  /** `!projectType || !industry || !targetAudience` fails. */
  predicate Valid(b: Body) {
    Present(b.projectType) && Present(b.industry) && Present(b.targetAudience)
  }

  /** The context handed to the orchestration: the validated fields and
      every other field exactly as received. */
  function ContextOf(b: Body): (c: Diamond.Context)
    requires Valid(b)
    ensures c.projectType == b.projectType.value && c.industry == b.industry.value && c.targetAudience == b.targetAudience.value
    ensures c.businessGoals == b.businessGoals && c.technicalRequirements == b.technicalRequirements
    ensures c.constraints == b.constraints && c.successMetrics == b.successMetrics
    ensures c.selectedModel == b.selectedModel
  {
    Diamond.Context(b.projectType.value, b.industry.value, b.targetAudience.value,
      b.businessGoals, b.technicalRequirements, b.constraints, b.successMetrics, b.selectedModel)
  }

  /** The row `db.diamondGradeAnalysis.create` writes. */
  function RowOf(id: string, c: Diamond.Context, a: Diamond.DiamondResult): (r: Row)
    ensures r.id == id && r.timestamp == a.timestamp
    ensures Diamond.Context(r.projectType, r.industry, r.targetAudience, r.businessGoals,
                            r.technicalRequirements, r.constraints, r.successMetrics, r.selectedModel) == c
    ensures r.analysis == a.analysis && r.consensusData == a.consensus
    ensures r.searchData == a.deepSearch && r.contextualAnalysis == a.contextualAnalysis
  {
    Row(id, c.projectType, c.industry, c.targetAudience, c.businessGoals, c.technicalRequirements,
      c.constraints, c.successMetrics, c.selectedModel, a.analysis, a.consensus, a.deepSearch,
      a.contextualAnalysis, a.timestamp)
  }

  /** `POST`. A failed save is logged and ignored. */
  function HandlePost(body: Result<Body>, orchestrate: Diamond.Context -> Result<Diamond.DiamondResult>,
                      save: Result<string>, processingTime: int): (h: Handled)
    ensures body.Err? ==> h == Handled(Failure(500, PostErrorPrefix + body.message), None, None)
    ensures body.Ok? && !Valid(body.value) ==> h == Handled(Failure(400, RequiredMessage), None, None)
    ensures StatusOf(h.response) == 400 <==> body.Ok? && !Valid(body.value)
    ensures h.orchestrated.Some? <==> body.Ok? && Valid(body.value)
    ensures h.orchestrated.Some? ==> h.orchestrated.value == ContextOf(body.value)
    ensures h.orchestrated.Some? && orchestrate(h.orchestrated.value).Err? ==>
      h.response == Failure(500, PostErrorPrefix + orchestrate(h.orchestrated.value).message) && h.stored.None?
    ensures h.orchestrated.Some? && orchestrate(h.orchestrated.value).Ok? ==>
      var a := orchestrate(h.orchestrated.value).value;
      h.response == AnalysisOk(a.analysis, a.consensus, a.deepSearch, a.contextualAnalysis, Metadata(a.timestamp, a.model, processingTime))
    ensures h.stored.Some? <==> h.response.AnalysisOk? && save.Ok?
    ensures h.stored.Some? ==> h.stored.value == RowOf(save.value, h.orchestrated.value, orchestrate(h.orchestrated.value).value)
  {
    match body
    case Err(m) => Handled(Failure(500, PostErrorPrefix + m), None, None)
    case Ok(b) =>
      if !Valid(b) then Handled(Failure(400, RequiredMessage), None, None)
      else
        var ctx := ContextOf(b);
        match orchestrate(ctx)
        case Err(m) => Handled(Failure(500, PostErrorPrefix + m), Some(ctx), None)
        case Ok(a) =>
          var stored := match save case Ok(id) => Some(RowOf(id, ctx, a)) case Err(_) => None;
          Handled(AnalysisOk(a.analysis, a.consensus, a.deepSearch, a.contextualAnalysis,
                             Metadata(a.timestamp, a.model, processingTime)), Some(ctx), stored)
  }

  // ---------------------------------------------------------------------
  // Properties of POST
  // ---------------------------------------------------------------------

  /** A failed save does not change the response. */
  lemma SaveFailureIgnored(body: Result<Body>, orchestrate: Diamond.Context -> Result<Diamond.DiamondResult>,
                           id: string, message: string, processingTime: int)
    ensures HandlePost(body, orchestrate, Err(message), processingTime).response
         == HandlePost(body, orchestrate, Ok(id), processingTime).response
  {
  }

  /** Only the three required fields are checked: the others, empty or
      missing, never decide validity. */
  lemma OnlyThreeFieldsValidated(b: Body, goals: Option<string>, requirements: Option<string>,
                                 constraints: Option<string>, metrics: Option<string>, model: Option<string>)
    ensures Valid(b) <==> Valid(b.(businessGoals := goals, technicalRequirements := requirements,
                                   constraints := constraints, successMetrics := metrics, selectedModel := model))
  {
  }

  /** End to end, the pipeline's own prefix is repeated by the handler: any
      failure of the orchestration on a valid body reaches the client as a
      500 whose error starts with the prefix twice. */
  lemma PrefixAppearsTwice(b: Body, env: Diamond.AIService.Env, st: Diamond.Stages, messages: seq<Diamond.AIService.Message>,
                           parse: string -> Option<Diamond.Analysis>, now: int, save: Result<string>, processingTime: int)
    requires Valid(b) && Diamond.PerformDiamondGradeAnalysis(env, ContextOf(b), st, messages, parse, now).Err?
    ensures HandlePost(Ok(b), ctx => Diamond.PerformDiamondGradeAnalysis(env, ctx, st, messages, parse, now), save, processingTime).response
         == Failure(500, PostErrorPrefix + Diamond.PerformDiamondGradeAnalysis(env, ContextOf(b), st, messages, parse, now).message)
    ensures IsPrefix(PostErrorPrefix + Diamond.DiamondErrorPrefix,
                     HandlePost(Ok(b), ctx => Diamond.PerformDiamondGradeAnalysis(env, ctx, st, messages, parse, now), save, processingTime).response.error)
    ensures st.init.Err? ==>
      HandlePost(Ok(b), ctx => Diamond.PerformDiamondGradeAnalysis(env, ctx, st, messages, parse, now), save, processingTime).response
         == Failure(500, PostErrorPrefix + (Diamond.DiamondErrorPrefix + st.init.message))
    ensures PostErrorPrefix == Diamond.DiamondErrorPrefix
  {
    var orchestrate := ctx => Diamond.PerformDiamondGradeAnalysis(env, ctx, st, messages, parse, now);
    var h := HandlePost(Ok(b), orchestrate, save, processingTime);
    var m := orchestrate(ContextOf(b)).message;
    assert h.response == Failure(500, PostErrorPrefix + m);
    assert IsPrefix(Diamond.DiamondErrorPrefix, m);
  }

  // ---------------------------------------------------------------------
  // GET: the ten most recent analyses
  // ---------------------------------------------------------------------

  ghost predicate SortedByRecency(s: seq<Row>) {
    forall i, j :: 0 <= i < j < |s| ==> s[i].timestamp >= s[j].timestamp
  }

  /** Inserts a row before the first row that is not more recent. */
  function Insert(x: Row, s: seq<Row>): (r: seq<Row>)
    requires SortedByRecency(s)
    ensures SortedByRecency(r)
    ensures multiset(r) == multiset(s) + multiset{x}
    ensures |r| == |s| + 1
    ensures r[0] == x || (|s| > 0 && r[0] == s[0])
    decreases |s|
  {
    if |s| == 0 || x.timestamp >= s[0].timestamp then [x] + s
    else
      assert s == [s[0]] + s[1..];
      [s[0]] + Insert(x, s[1..])
  }

  /** `orderBy: { timestamp: 'desc' }`. */
  function SortByRecency(s: seq<Row>): (r: seq<Row>)
    ensures SortedByRecency(r)
    ensures multiset(r) == multiset(s)
    ensures |r| == |s|
    decreases |s|
  {
    if |s| == 0 then []
    else
      assert s == [s[0]] + s[1..];
      Insert(s[0], SortByRecency(s[1..]))
  }

  function Min(a: int, b: int): int {
    if a <= b then a else b
  }

  /** `take: 10` after the ordering. */
  function Recent(rows: seq<Row>): (r: seq<Row>)
    ensures |r| == Min(RecentLimit, |rows|)
    ensures SortedByRecency(r)
  {
    var sorted := SortByRecency(rows);
    sorted[..Min(RecentLimit, |rows|)]
  }

  /** The `select` projection. */
  function Project(row: Row): Summary {
    Summary(row.id, row.projectType, row.industry,
      row.analysis.contextScore, row.analysis.complexityScore, row.analysis.feasibilityScore,
      row.analysis.innovationScore, row.analysis.riskScore, row.analysis.successProbability,
      row.timestamp, row.selectedModel)
  }

  function ProjectAll(rows: seq<Row>): (r: seq<Summary>)
    ensures |r| == |rows|
    ensures forall i :: 0 <= i < |rows| ==> r[i] == Project(rows[i])
  {
    seq(|rows|, i requires 0 <= i < |rows| => Project(rows[i]))
  }

  /** `GET`. */
  function HandleGet(store: Result<seq<Row>>): (r: Response)
    ensures store.Err? ==> r == Failure(500, FetchError)
    ensures store.Ok? ==> r.ListOk? && r.count == |r.analyses|
    ensures store.Ok? ==> r.count == Min(RecentLimit, |store.value|) && r.count <= RecentLimit
    ensures store.Ok? ==> forall i, j :: 0 <= i < j < |r.analyses| ==> r.analyses[i].timestamp >= r.analyses[j].timestamp
    ensures store.Ok? ==> r.analyses == ProjectAll(Recent(store.value))
  {
    match store
    case Err(_) => Failure(500, FetchError)
    case Ok(rows) =>
      var recent := ProjectAll(Recent(rows));
      ListOk(recent, |recent|)
  }

  /** In a list sorted newest first, nothing after position `k` is newer than anything before it. */
  lemma TailNoNewer(sorted: seq<Row>, k: nat)
    requires SortedByRecency(sorted) && k <= |sorted|
    ensures forall x, y :: x in multiset(sorted[k..]) && y in sorted[..k] ==> y.timestamp >= x.timestamp
  {
    forall x, y | x in multiset(sorted[k..]) && y in sorted[..k]
      ensures y.timestamp >= x.timestamp
    {
      var j :| 0 <= j < |sorted[k..]| && sorted[k..][j] == x;
      var i :| 0 <= i < k && sorted[..k][i] == y;
      assert sorted[k + j] == x && sorted[i] == y;
    }
  }

  /** The rows GET returns are stored rows, and every stored row left out is
      no more recent than any row returned. */
  lemma RecentAreMostRecent(rows: seq<Row>)
    ensures multiset(Recent(rows)) <= multiset(rows)
    ensures forall x, y :: x in rows && x !in Recent(rows) && y in Recent(rows) ==> y.timestamp >= x.timestamp
  {
    var sorted := SortByRecency(rows);
    var k := Min(RecentLimit, |rows|);
    assert sorted == sorted[..k] + sorted[k..];
    assert multiset(rows) == multiset(sorted[..k]) + multiset(sorted[k..]);
    forall x | x in rows && x !in Recent(rows)
      ensures x in multiset(sorted[k..])
    {
      assert x in multiset(rows);
    }
    TailNoNewer(sorted, k);
  }

  /** When the store holds at most ten rows, GET returns all of them. */
  lemma SmallStoreReturnedWhole(rows: seq<Row>)
    requires |rows| <= RecentLimit
    ensures multiset(Recent(rows)) == multiset(rows)
  {
    assert SortByRecency(rows)[..|rows|] == SortByRecency(rows);
  }
}

=== FILE: server.dfy ===
/** The socket server's AI request handling (server.ts:43-60, 77-89).

    `processAIRequest` is a placeholder switch on the request type. The
    `ai-request` handler is modelled by the list of events it emits, each
    with the audience it goes to; the socket transport itself is not part
    of this model. */
module Server {

  import opened Wrappers
  import opened Strings

  /** What `processAIRequest` returns, one shape per branch. */
  datatype Reply =
    | ResearchReply(result: string, confidence: real)
    | AnalyticsReply(data: string, insights: seq<string>)
    | ImageReply(imageUrl: string, prompt: string)
    | Processed(result: string)

  const ResearchPrefix := "Research results for: "
  const ProcessedPrefix := "Processed: "
  const AnalyticsData := "Analytics data processed"
  const Insights: seq<string> := ["Insight 1", "Insight 2"]
  const ImageUrl := "generated-image-url"

  function ProcessAIRequest(kind: string, prompt: string): (r: Reply)
    ensures kind == "research" <==> r.ResearchReply?
    ensures kind == "analytics" <==> r.AnalyticsReply?
    ensures kind == "image-generation" <==> r.ImageReply?
    ensures r.ResearchReply? ==> r.confidence == 0.95 && IsPrefix(ResearchPrefix, r.result)
    ensures r.AnalyticsReply? ==> |r.insights| == 2
    ensures r.ImageReply? ==> r.imageUrl == ImageUrl && r.prompt == prompt
    ensures r.Processed? ==> IsPrefix(ProcessedPrefix, r.result)
  {
    match kind
    case "research" => ResearchReply(ResearchPrefix + prompt, 0.95)
    case "analytics" => AnalyticsReply(AnalyticsData, Insights)
    case "image-generation" => ImageReply(ImageUrl, prompt)
    case _ => Processed(ProcessedPrefix + prompt)
  }

  /** The prompt a reply carries, read back; the analytics reply carries none. */
  function PromptOf(r: Reply): Option<string> {
    match r
    case ResearchReply(result, _) =>
      if IsPrefix(ResearchPrefix, result) then Some(result[|ResearchPrefix|..]) else None
    case AnalyticsReply(_, _) => None
    case ImageReply(_, prompt) => Some(prompt)
    case Processed(result) =>
      if IsPrefix(ProcessedPrefix, result) then Some(result[|ProcessedPrefix|..]) else None
  }

  /** Every branch but analytics keeps the prompt recoverable from the reply. */
  lemma PromptRecoverable(kind: string, prompt: string)
    ensures kind != "analytics" <==> PromptOf(ProcessAIRequest(kind, prompt)) == Some(prompt)
  {
    var r := ProcessAIRequest(kind, prompt);
    if r.ResearchReply? {
      assert r.result[|ResearchPrefix|..] == prompt;
    } else if r.Processed? {
      assert r.result[|ProcessedPrefix|..] == prompt;
    }
  }

  /** The analytics reply is the same whatever the prompt. */
  lemma AnalyticsIgnoresPrompt(p: string, q: string)
    ensures ProcessAIRequest("analytics", p) == ProcessAIRequest("analytics", q)
    ensures ProcessAIRequest("analytics", p).insights == ["Insight 1", "Insight 2"]
  {
  }

  // ---------------------------------------------------------------------
  // The ai-request handler
  // ---------------------------------------------------------------------

  /** The fields the handler reads from the event payload. */
  datatype AIRequest = AIRequest(kind: string, prompt: string, room: string)

  /** `socket.to(room)` reaches the other members of the room; `socket.emit` only the sender. */
  datatype Audience = Room(name: string) | Sender

  datatype Event =
    | AIProcessing(status: string)
    | AIResponse(response: Reply, kind: string)
    | AIError(error: string)

  datatype Emission = Emission(to: Audience, event: Event)

  const ProcessingStatus := "processing"
  const RequestError := "Failed to process AI request"

  /** The events the handler emits, in order. A `null` or `undefined` payload
      (`None`) cannot be destructured and throws before anything is emitted. */
  function HandleAIRequest(data: Option<AIRequest>): (trace: seq<Emission>)
    ensures data.None? ==> trace == [Emission(Sender, AIError(RequestError))]
    ensures data.Some? ==> |trace| == 2
    ensures data.Some? ==> trace[0] == Emission(Room(data.value.room), AIProcessing(ProcessingStatus))
    ensures data.Some? ==>
      trace[1] == Emission(Room(data.value.room), AIResponse(ProcessAIRequest(data.value.kind, data.value.prompt), data.value.kind))
  {
    match data
    case None => [Emission(Sender, AIError(RequestError))]
    case Some(req) =>
      [ Emission(Room(req.room), AIProcessing(ProcessingStatus)),
        Emission(Room(req.room), AIResponse(ProcessAIRequest(req.kind, req.prompt), req.kind)) ]
  }

  /** The ordering promises of the trace: a response always follows a
      processing notice to the same room, responses never go to the
      sender, and an error is sent to the sender alone with no response. */
  lemma TraceOrdering(data: Option<AIRequest>)
    ensures var t := HandleAIRequest(data);
      forall i :: 0 <= i < |t| && t[i].event.AIResponse? ==>
        t[i].to != Sender && exists j :: 0 <= j < i && t[j].event.AIProcessing? && t[j].to == t[i].to
    ensures var t := HandleAIRequest(data);
      (exists i :: 0 <= i < |t| && t[i].event.AIError?) ==>
        forall i :: 0 <= i < |t| ==> t[i].to == Sender && !t[i].event.AIResponse?
  {
    var t := HandleAIRequest(data);
    if data.Some? {
      assert t[0].event.AIProcessing? && t[0].to == t[1].to;
    }
  }
}

=== FILE: strings.dfy ===
/** String helpers for JavaScript's `startsWith`, `endsWith`, `includes`,
    `indexOf` and `Array.prototype.join`, with the facts the prompt and
    routing rules need about them. */
module Strings {

  import opened Wrappers

  predicate IsPrefix(p: string, s: string) {
    |p| <= |s| && s[..|p|] == p
  }

  predicate IsSuffix(p: string, s: string) {
    |p| <= |s| && s[|s| - |p|..] == p
  }

  /** `sub` occurs in `s` starting at index `i`. */
  ghost predicate OccursAt(s: string, sub: string, i: int) {
    0 <= i && i + |sub| <= |s| && s[i..i + |sub|] == sub
  }

  /** The declarative meaning of `s.includes(sub)`. */
  ghost predicate Occurs(s: string, sub: string) {
    exists i :: OccursAt(s, sub, i)
  }

  /** `s.includes(sub)`, computed by scanning `s` from the left. */
  predicate Contains(s: string, sub: string)
    decreases |s|
  {
    IsPrefix(sub, s) || (|s| > 0 && Contains(s[1..], sub))
  }

  /** The scanning definition agrees with the declarative one, in both directions. */
  lemma {:induction false} ContainsIffOccurs(s: string, sub: string)
    ensures Contains(s, sub) <==> Occurs(s, sub)
    decreases |s|
  {
    if IsPrefix(sub, s) {
      assert OccursAt(s, sub, 0);
    } else if |s| > 0 {
      ContainsIffOccurs(s[1..], sub);
      if Occurs(s[1..], sub) {
        var i :| OccursAt(s[1..], sub, i);
        assert s[i + 1..i + 1 + |sub|] == sub by {
          forall j | 0 <= j < |sub| ensures s[i + 1 + j] == sub[j] {
            assert sub[j] == s[1..][i..i + |sub|][j];
          }
        }
        assert OccursAt(s, sub, i + 1);
      }
      if Occurs(s, sub) {
        var i :| OccursAt(s, sub, i);
        if i > 0 {
          assert s[1..][i - 1..i - 1 + |sub|] == s[i..i + |sub|];
          assert OccursAt(s[1..], sub, i - 1);
        }
      }
    }
  }

  /** Whatever occurs in `b` still occurs once text is put around it. */
  lemma OccursInConcat(a: string, b: string, c: string, sub: string)
    requires Occurs(b, sub)
    ensures Occurs(a + b + c, sub)
  {
    var i :| OccursAt(b, sub, i);
    var s := a + b + c;
    assert s[|a| + i..|a| + i + |sub|] == b[i..i + |sub|];
    assert OccursAt(s, sub, |a| + i);
  }

  /** A fixed frame around a part determines the part: equal framed strings
      have equal middles. */
  lemma CancelFrame(a: string, x: string, y: string, b: string)
    requires a + x + b == a + y + b
    ensures x == y
  {
    assert |x| == |y|;
    assert x == (a + x + b)[|a|..|a| + |x|];
    assert y == (a + y + b)[|a|..|a| + |y|];
  }

  /** Two framed strings with middles of one length agree on the middles
      and on what follows the frame. */
  lemma SplitFramed(a: string, x: string, y: string, b: string, c1: string, c2: string)
    requires a + x + b + c1 == a + y + b + c2 && |x| == |y|
    ensures x == y && c1 == c2
  {
    var s1, s2 := a + x + b + c1, a + y + b + c2;
    assert x == s1[|a|..|a| + |x|];
    assert y == s2[|a|..|a| + |y|];
    assert c1 == s1[|a| + |x| + |b|..];
    assert c2 == s2[|a| + |y| + |b|..];
  }

  /** Every string occurs in itself. */
  lemma OccursSelf(s: string)
    ensures Occurs(s, s)
  {
    assert OccursAt(s, s, 0);
  }

  /** `parts.join(sep)`. */
  function Join(parts: seq<string>, sep: string): string
    decreases |parts|
  {
    if |parts| == 0 then ""
    else if |parts| == 1 then parts[0]
    else parts[0] + sep + Join(parts[1..], sep)
  }

  /** Joining keeps every part: each one occurs in the joined text. */
  lemma {:induction false} JoinKeepsParts(parts: seq<string>, sep: string)
    ensures forall k :: 0 <= k < |parts| ==> Occurs(Join(parts, sep), parts[k])
    decreases |parts|
  {
    if |parts| == 1 {
      OccursSelf(parts[0]);
    } else if |parts| > 1 {
      JoinKeepsParts(parts[1..], sep);
      var rest := Join(parts[1..], sep);
      forall k | 0 <= k < |parts|
        ensures Occurs(Join(parts, sep), parts[k])
      {
        if k == 0 {
          OccursSelf(parts[0]);
          OccursInConcat("", parts[0], sep + rest, parts[0]);
          assert "" + parts[0] + (sep + rest) == Join(parts, sep);
        } else {
          assert parts[1..][k - 1] == parts[k];
          OccursInConcat(parts[0] + sep, rest, "", parts[k]);
          assert parts[0] + sep + rest + "" == Join(parts, sep);
        }
      }
    }
  }

  /** Index of the first occurrence of `c` in `s` (`s.indexOf(c)`), `None` for -1. */
  function IndexOf(s: string, c: char): (r: Option<nat>)
    ensures r.Some? ==> r.value < |s| && s[r.value] == c
    ensures r.Some? ==> forall j :: 0 <= j < r.value ==> s[j] != c
    ensures r.None? <==> c !in s
    decreases |s|
  {
    if |s| == 0 then None
    else if s[0] == c then Some(0)
    else match IndexOf(s[1..], c)
      case None => None
      case Some(i) => Some(i + 1)
  }

}

=== FILE: wrappers.dfy ===
/** Failure-carrying datatypes shared by every module of the model.

    `Option` stands for a JavaScript value that may be `undefined`/`null`,
    `Result` for a call that either returns a value or throws an `Error`
    whose `message` is kept as a string.
 */
module Wrappers {

  datatype Option<+T> = None | Some(value: T) {

    /** The value, or `default` when absent. */
    function GetOr(default: T): T {
      match this
      case Some(v) => v
      case None => default
    }
  }

  datatype Result<+T> = Ok(value: T) | Err(message: string) {

    predicate IsFailure() {
      Err?
    }

    function PropagateFailure<U>(): Result<U>
      requires Err?
    {
      Err(message)
    }

    function Extract(): T
      requires Ok?
    {
      value
    }

    /** Prefixes the message of a failure; a success is left alone.
        This is the `throw new Error(`prefix${error.message}`)` idiom. */
    function Wrap(prefix: string): (r: Result<T>)
      ensures Ok? ==> r == this
      ensures Err? ==> r.Err? && r.message == prefix + message
    {
      match this
      case Ok(v) => Ok(v)
      case Err(m) => Err(prefix + m)
    }
  }

  /** JavaScript's `a || b` on a string: the empty string is falsy. */
  function OrElse(s: string, default: string): (r: string)
    ensures s != "" ==> r == s
    ensures s == "" ==> r == default
  {
    if s != "" then s else default
  }

  /** JavaScript's `a || b` on a possibly-undefined string. */
  function OptOrElse(o: Option<string>, default: string): (r: string)
    ensures o.Some? && o.value != "" ==> r == o.value
    ensures (o.None? || o.value == "") ==> r == default
  {
    match o
    case Some(s) => OrElse(s, default)
    case None => default
  }
}
